=== FILE: README.md ===
# Clipboard filter core — a Dafny model

This project models the core of a desktop clipboard filter. The core holds a
list of substitution rules, built-in and custom. Each rule is a literal or
regular-expression pattern with a replacement. The rules can be grouped by
category or filed in custom folders, and copied text is run through every
enabled rule in turn.

Three parts of the program are modelled:

- **The filter manager** (`src/filterManager.ts`):
  - `filterText` and `escapeRegex`;
  - creating, updating, deleting and moving rules and folders;
  - the category and folder queries;
  - the settings merge;
  - constructor seeding from the bundled default rules;
  - `resetToDefaults`, `importFilters` and `exportFilters`.
- **The locale manager** (`src/localeManager.ts`):
  - dotted-key lookup with `{name}` placeholders (`t`);
  - switching locale;
  - listing the available locales.
- **The settings window's pure logic** (`src/renderer.js`):
  - toggling, deleting and resetting a category;
  - resetting all built-in rules;
  - deleting everything custom;
  - validating and saving the rule editor;
  - exporting and importing templates;
  - recording and showing the paste shortcut.

Every operation is a pure function over immutable values. The store is a
record of three lists; an operation returns the new store. Several things
become parameters:

- the id generator;
- the bundled default-rule file;
- the locale directory;
- the answers to confirmation and prompt dialogs;
- the JavaScript regular-expression engine.

The regular-expression engine is abstract: `compile` may fail, and a
compiled pattern yields its matches as ordered, non-overlapping spans with
their captures. Literal rules are modelled concretely: the escaped pattern is
scanned for case-insensitive occurrences. The replacement string's `$`
tokens follow the JavaScript `GetSubstitution` rules.

Modules:

- `Wrappers`, `Seqs` and `Strings`: options, patches, `Array.filter`,
  `findIndex` and string helpers;
- `Rules`: the records and the partial-update merge;
- `Regex`: the matcher, the replacement and `escapeRegex`;
- `FilterEngine`: `filterText`;
- `FilterExamples`: worked instances of `filterText`;
- `RuleStore`: the filter manager;
- `Locale`: the locale manager;
- `Ui`: the outcome of a dialog-driven action;
- `BulkActions`: category, reset and delete-all actions;
- `FilterForm`: the rule editor;
- `Templates`: template files;
- `Shortcuts`: the shortcut recorder.

## Model

| member | source | states |
|---|---|---|
| FilterEngine.FilterTextLoop | src/filterManager.ts:192-222 | The loop over the enabled rules threads the text through each rule in stored order and sums the per-rule match counts. Its result equals the fold `FilterText`. An empty text comes back unchanged with count 0. |
| FilterEngine.EnabledRules | src/filterManager.ts:197 | The rules consulted are exactly the enabled ones. |
| FilterEngine.FilterTextIgnoresDisabled | src/filterManager.ts:197-219 | Inserting a disabled rule anywhere in the list changes neither the filtered text nor the count. |
| FilterEngine.FilterTextSkipsInvalidPattern | src/filterManager.ts:200-210 | A pattern-mode rule whose pattern does not compile is skipped. It changes neither the text nor the count, wherever it sits. |
| FilterEngine.RunRulesAppend | src/filterManager.ts:199-219 | Running the rules `a + b` runs `b` on the output of `a`, and the counts add. |
| FilterEngine.FilterTextChain | src/filterManager.ts:192-222 | Filtering a non-empty text with `a + b` filters with `a`, then runs the enabled rules of `b` on the result. The two counts add. |
| FilterEngine.LiteralRuleStep | src/filterManager.ts:211-217 | A literal rule's matches are occurrences of its pattern under the case fold, each as long as the pattern. No occurrence is missed. The count is the number of matches. |
| FilterEngine.LiteralRuleLength | src/filterManager.ts:211-217 | With a `$`-free replacement, each match changes the text length by the replacement length minus the pattern length. |
| Regex.EscapeRegex | src/filterManager.ts:224-226 | Escaping adds one backslash per metacharacter. The escaped source, read as a pattern, denotes exactly the input text. |
| Regex.EscapeLiteralSource | src/filterManager.ts:224-226 | Conversely, any source that denotes a literal is the escape of the text it denotes. |
| Regex.EscapeProtectsMeta | src/filterManager.ts:224-226 | No metacharacter of the input is left unescaped. |
| Regex.CompiledLiteralMatches | src/filterManager.ts:212 | When a literal source compiles, its matches in any subject are ordered, non-overlapping and inside it. Each is a case-insensitive occurrence of the text the source denotes, and every occurrence starts a match or lies inside one. |
| Regex.EscapedCompiles | src/filterManager.ts:212 | An escaped pattern always compiles, and its matches are those of the scan for the pattern itself. |
| Regex.LiteralHitsComplete | src/filterManager.ts:212-213 | The global scan for a literal covers every position where it occurs, as a match start or inside a match. |
| Regex.LiteralHitCovering | src/filterManager.ts:212-213 | For every occurrence of the literal, it names the match of the scan that starts at it or contains it. |
| Regex.LiteralHitsBound | src/filterManager.ts:213 | A literal has at most one more match than the subject has characters. |
| Regex.SubstitutionPlain | src/filterManager.ts:205 | A replacement without `$` is inserted verbatim for a match. |
| Regex.ReplaceFromLength | src/filterManager.ts:205 | Replacing equal-length matches with a `$`-free replacement changes the length by the difference, once per match. |
| FilterExamples.CaseInsensitiveLiteral | src/filterManager.ts:212-217 | The literal rule "foo" to "X" turns "Foo bar foo" into "X bar X" with count 2. |
| FilterExamples.ChainOfTwoWithDisabled | src/filterManager.ts:197-219 | A rewrite of `p` to `q` followed by one of `q` to `s` turns `p` into `s` with count 2. A disabled rule between them changes nothing. |
| FilterExamples.CatDogFish | src/filterManager.ts:199-219 | "cat" to "dog" followed by "dog" to "fish" turns "cat" into "fish" with count 2. |
| Rules.WithId | src/filterManager.ts:157-161 | The new rule carries the given id and every other field of the template. |
| Rules.PatchRuleMerges | src/filterManager.ts:173 | A merge keeps the id. For each of the nine other fields it takes the patch's value when the patch sets it and keeps the rule's value otherwise. The empty patch changes nothing. |
| Rules.PatchRuleCompose | src/filterManager.ts:173 | Two merges in turn are one merge with the combined patch. |
| RuleStore.AddFilter | src/filterManager.ts:157-167 | The list grows by one at the end. The earlier rules are unchanged. The new rule has the generated id and the given fields. |
| RuleStore.UpdateFilter | src/filterManager.ts:169-177 | Only the first rule with the id is merged with the patch. All ids are kept. An unknown id changes nothing. |
| RuleStore.UpdateUniqueAt | src/filterManager.ts:169-177 | With distinct ids, an update touches exactly the rule carrying the id. |
| RuleStore.UpdateFilterCompose | src/filterManager.ts:169-177 | Two updates of one rule in turn are one update with the merged patch. |
| RuleStore.DeleteFilter | src/filterManager.ts:179-183 | The remaining rules are exactly those with another id, and no rule with the id is left. An unknown id changes nothing. |
| RuleStore.DeleteFilterRemovesOne | src/filterManager.ts:179-183 | Deleting the id of a rule that is the only one carrying it removes that rule and nothing else. |
| RuleStore.AddThenDelete | src/filterManager.ts:157-183 | Adding a rule under a fresh id and then deleting that id restores the list. |
| RuleStore.AddFilterUnique | src/filterManager.ts:157-167 | Adding under a fresh id keeps ids distinct. |
| RuleStore.UpdateDeleteUnique | src/filterManager.ts:169-183 | Updates and deletions keep ids distinct. |
| RuleStore.MoveFilterToFolder | src/filterManager.ts:185-188 | Only the folder of the first rule with the id changes. |
| RuleStore.MoveShowsInTarget | src/filterManager.ts:185-188 | A moved rule shows up in the query of its new folder, or in its category's query when it is moved out of every folder. |
| RuleStore.AddCustomFolder | src/filterManager.ts:101-112 | The new folder is appended with the generated id and the given name and icon. It is always expanded. |
| RuleStore.AddThenDeleteFolder | src/filterManager.ts:101-135 | In a store without orphaned rules, adding a folder under a fresh non-empty id and then deleting that id restores the store. |
| RuleStore.UpdateCustomFolder | src/filterManager.ts:114-122 | Only the first folder with the id is merged. An unknown id changes nothing. |
| RuleStore.DeleteCustomFolder | src/filterManager.ts:125-135 | The folder goes, and so does every rule filed in it. Other rules and folders stay. The folder's query is then empty. |
| RuleStore.DeleteCustomFolderSplits | src/filterManager.ts:127-133 | The deletion acts on each part of the rule list and of the folder list on its own, so what stays keeps its order. |
| RuleStore.DeleteCustomFolderUntouched | src/filterManager.ts:127-133 | With no rule filed in the folder, the rule list is unchanged. An unknown folder id leaves the folder list unchanged. |
| RuleStore.DeleteCustomFolderRemovesOne | src/filterManager.ts:132-133 | With distinct folder ids, exactly the one folder is taken out of the list. |
| RuleStore.DeleteFolderNoOrphans | src/filterManager.ts:125-135 | If every rule's folder exists before a folder is deleted, the same holds afterwards. |
| RuleStore.GetFiltersByCategory | src/filterManager.ts:143-145 | Exactly the rules of the category that are outside every folder. |
| RuleStore.GetFiltersByFolder | src/filterManager.ts:147-149 | Exactly the rules filed in the folder. |
| RuleStore.GetCategories | src/filterManager.ts:151-155 | The distinct categories of the rules outside folders, strictly sorted. |
| RuleStore.CategoriesMatchQueries | src/filterManager.ts:143-155 | A category is listed exactly when its category query is non-empty. |
| RuleStore.UpdateSettings | src/filterManager.ts:238-242 | Each settings field the patch sets is taken and every other is kept. Rules and folders are untouched. |
| RuleStore.UpdateSettingsCompose | src/filterManager.ts:238-242 | Two settings updates are one update with the merged patch. Repeating an update changes nothing. |
| RuleStore.DefaultFilters | src/filterManager.ts:75-88 | One rule per bundled entry, with the entry's fields and the next generated id. A missing or unreadable bundle gives none. |
| RuleStore.DefaultFiltersUnique | src/filterManager.ts:75-93 | With an injective id generator, the seeded rules have distinct ids. |
| RuleStore.Construct | src/filterManager.ts:53-72 | Absent keys take their defaults, including the default settings. An empty rule list is seeded from the bundle. A non-empty one is kept. |
| RuleStore.ReopenIsStable | src/filterManager.ts:53-72 | Writing a constructed store back and constructing again gives the same store. |
| RuleStore.FreshStore | src/filterManager.ts:53-72 | A store never written holds the bundled rules, no folders and the default settings. |
| RuleStore.ResetToDefaults | src/filterManager.ts:246-249 | Only the rule list is replaced, by one rule per bundle entry carrying that entry's fields and the next generated id. A missing bundle leaves no rules. Folders and settings are kept. |
| RuleStore.ImportFilters | src/filterManager.ts:251-254 | The rule list becomes the imported list. Folders and settings are kept. |
| RuleStore.ExportImport | src/filterManager.ts:251-258 | Importing what was exported leaves the store unchanged. |
| Locale.Child | src/localeManager.ts:51-52 | A lookup step succeeds on an object exactly for its own keys. It fails on strings, numbers, booleans and null. |
| Locale.ResolveNest | src/localeManager.ts:47-56 | Walking the path a tree was built along reaches its leaf. |
| Locale.DottedKeyFindsString | src/localeManager.ts:46-65 | A dotted key whose segments lead to a string translates to that string. |
| Locale.MissingKeyIsEchoed | src/localeManager.ts:50-68 | A key whose path fails, or ends on something other than a string, translates to itself, with or without parameters. |
| Locale.EmptyTreeEchoes | src/localeManager.ts:46-69 | With no translations loaded, every key translates to itself. |
| Locale.ResolveThroughLeaf | src/localeManager.ts:51-54 | A lookup that goes through a string, number, boolean or null fails. |
| Locale.WordRun | src/localeManager.ts:61 | The run of `\w` characters at the start of a text is maximal. |
| Locale.PlaceholderAt | src/localeManager.ts:61 | A placeholder is `{`, one or more word characters, then `}`. |
| Locale.SubstituteNothing | src/localeManager.ts:61-63 | With no parameters, every placeholder stays as written. |
| Locale.EmptyParamsAreNoParams | src/localeManager.ts:60-65 | Passing an empty parameter object gives the same text as passing none. |
| Locale.SubstituteNoBrace | src/localeManager.ts:61-63 | Text without `{` is left alone. |
| Locale.PlaceholderThen | src/localeManager.ts:61-63 | A leading placeholder with a given parameter is replaced by the parameter's text, and the scan goes on after it. |
| Locale.SubstitutionIsOnePass | src/localeManager.ts:61-63 | Inserted text is not scanned again: a value that looks like a placeholder stays. |
| Locale.DottedKeyWithParams | src/localeManager.ts:46-63 | A found string is filled in from the parameters. |
| Locale.FillOnePlaceholder | src/localeManager.ts:61-63 | One placeholder followed by brace-free text becomes the rendered value followed by that text. |
| Locale.RenderNumbers | src/localeManager.ts:62 | Numeric parameters are written in decimal, with a minus sign when negative. |
| Locale.SetLocale | src/localeManager.ts:14-29 | A locale whose file exists and parses becomes current, with that file's tree. Otherwise nothing changes. |
| Locale.SetLocaleFallback | src/localeManager.ts:14-29 | A missing file leaves the state unchanged. Switching twice to the same locale is switching once. |
| Locale.SetLocaleThenT | src/localeManager.ts:14-20 | After a successful switch, lookups read the new tree. |
| Locale.InitialState | src/localeManager.ts:4-12 | The manager starts in English. Its tree is that of `en.json` when the file exists and parses, and empty otherwise. |
| Locale.AvailableLocales | src/localeManager.ts:35-44 | One name per `.json` file of the listing. An unlistable directory gives `["en"]`. |
| Locale.ListedLocaleHasFile | src/localeManager.ts:38-40 | Each listed name comes from a `.json` file of the directory. When `.json` occurs only as the suffix, switching to the name finds that file. |
| BulkActions.SetEnabledEachSpec | src/renderer.js:302-304 | With distinct ids, the per-id update loop sets `enabled` on exactly the listed rules and keeps ids distinct. |
| BulkActions.DeleteEachSpec | src/renderer.js:604-606 | The per-id delete loop keeps exactly the rules whose id is not listed, in order. |
| BulkActions.SetEnabledSelection | src/renderer.js:302-304 | With distinct ids, updating by the ids of a selection updates exactly the selected rules. |
| BulkActions.DeleteSelection | src/renderer.js:604-606 | With distinct ids, deleting by the ids of a selection keeps exactly the unselected rules. |
| BulkActions.ToggleSpec | src/renderer.js:289-307 | Toggling a group sets every rule of the group to "not all were enabled" and leaves all other rules alone. A group is the rules listed under a category heading, or a folder's rules. |
| BulkActions.ToggleMakesGroupUniform | src/renderer.js:298-304 | After a toggle, the group's rules are all on or all off. |
| BulkActions.ToggleOff | src/renderer.js:298-304 | A fully enabled group is switched entirely off. |
| BulkActions.ToggleOn | src/renderer.js:298-304 | A group with a disabled rule is switched entirely on. |
| BulkActions.ToggleTwiceRestores | src/renderer.js:289-307 | Toggling a fully enabled group twice restores the list. |
| BulkActions.UncategorizedToggleOverreaches | src/renderer.js:291-293 | As written, toggling "Uncategorized" also switches off a rule listed under "Text". The corrected toggle leaves that rule alone. |
| BulkActions.ToggleAsWrittenAgrees | src/renderer.js:289-307 | The toggle as written equals the corrected toggle for every folder and every non-empty category heading other than "Uncategorized". There `ToggleSpec` and the other toggle lemmas describe the program as written. |
| BulkActions.DeleteCategory | src/renderer.js:591-609 | The deletion is refused exactly when a built-in rule is in the category. Otherwise it is cancelled exactly when not confirmed. |
| BulkActions.DeleteCategorySpec | src/renderer.js:591-609 | A confirmed deletion keeps exactly the rules outside the category. The category's query is then empty, and the category is no longer listed. |
| BulkActions.ResetCategory | src/renderer.js:611-622 | A reset is never refused. It is cancelled exactly when not confirmed. |
| BulkActions.ResetCategorySpec | src/renderer.js:611-622 | A confirmed reset enables exactly the built-in rules of the category and leaves the rest. Resetting again changes nothing. |
| BulkActions.ResetAllDefaults | src/renderer.js:1360-1372 | Cancelled exactly when not confirmed. The reported count is the number of built-in rules. |
| BulkActions.ResetAllDefaultsSpec | src/renderer.js:1365-1368 | Every built-in rule ends enabled with every other field kept. Every custom rule is unchanged, and ids stay distinct. |
| BulkActions.DeleteFoldersSpec | src/renderer.js:1390-1392 | The folder loop removes the listed folders and every rule filed in one of them. The settings are kept. |
| BulkActions.DeleteEveryFolder | src/renderer.js:1390-1392 | Deleting the ids of every folder leaves none. |
| BulkActions.DeleteAllCustom | src/renderer.js:1374-1397 | Refused exactly when no custom rule exists. Otherwise cancelled exactly when not confirmed. The report gives the number of custom rules and the number of folders there were. This is the corrected report of the third Findings row. |
| BulkActions.DeleteAllCustomAsWritten | src/renderer.js:1394-1396 | As written, the alert reads the folder list reloaded after the deletion. Everything else agrees with the corrected action. |
| BulkActions.DeleteAllCustomReportsNoFolders | src/renderer.js:1394-1396 | As written, the folder count reported is always 0, so it is wrong whenever there was a folder. |
| BulkActions.DeleteAllCustomSpec | src/renderer.js:1374-1397 | Afterwards no folder is left. The reported folder count is the number of folders removed. The rules left are the built-in ones that were outside every folder. The settings are kept. |
| FilterForm.Check | src/renderer.js:350-355 | Each refusal holds exactly when its check fails and the earlier checks pass: blank description, blank pattern, then an uncompilable pattern in pattern mode. The form passes when none fails. |
| FilterForm.FormFolder | src/renderer.js:360 | The empty folder choice means no folder. Any other choice is kept. |
| FilterForm.SaveFilter | src/renderer.js:342-371 | Refused exactly when a check fails, with that check's message. Never cancelled. An edit keeps the list length; an addition adds one rule. |
| FilterForm.SaveAddsCustomRule | src/renderer.js:357-367 | A new rule is appended. It is custom and in category "Custom", and carries the form's fields and the fresh id. It is outside every folder exactly when no folder was chosen. |
| FilterForm.EditKeepsIdentity | src/renderer.js:357-364 | An edit replaces the form's fields and keeps the id, the built-in key and the subcategory. An edited built-in rule stays built-in. |
| FilterForm.SaveEditsInPlace | src/renderer.js:363-364 | With distinct ids, the rule carrying the edited id is patched in place and every other rule is unchanged. |
| FilterForm.SaveStaleEdit | src/renderer.js:363-364 | Editing a rule that no longer exists changes nothing. |
| FilterForm.SavedPatternCompiles | src/renderer.js:352-355 | A saved pattern-mode rule always compiles, so `filterText` never skips it as invalid. |
| RuleStore.UserRules | src/renderer.js:1273 | The exported rules are exactly those without a truthy built-in key. |
| Templates.SafeFileName | src/renderer.js:1306 | The file name keeps every ASCII letter and digit in place, and every character is a letter, a digit or `_`. |
| Templates.SafeFileNameIdempotent | src/renderer.js:1306 | Sanitizing a sanitized name changes nothing. |
| Templates.ExportTemplate | src/renderer.js:1270-1310 | Refused exactly when there is no custom rule. Otherwise cancelled exactly when the name is not truthy. An export carries the name and version "1.0.0", with "Custom template" and "Anonymous" as defaults. It has one entry per custom rule, none with a built-in key, and is saved as the sanitized name plus ".json". |
| Templates.ImportItems | src/renderer.js:1332-1346 | Each readable entry is appended under the next fresh id, with its category defaulting to "Custom" and each flag on unless it is `false`. Unreadable elements are skipped. The count is the number of entries added. |
| Templates.ImportTemplate | src/renderer.js:1316-1357 | Refused for an unreadable file, or for one without a filter list. Cancelled when no file is chosen or the import is not confirmed. Existing rules stay first. |
| Templates.ImportKeepsBuiltinKey | src/renderer.js:1337 | An imported entry is built-in exactly when it carries a truthy built-in key. |
| Templates.ExportThenImport | src/renderer.js:1270-1346 | Importing an exported file appends one custom rule per exported rule, in order, under the fresh ids. Each keeps its description, pattern, replacement and flags. It keeps its category too, except that an empty one reads as "Custom". It loses its subcategory and folder. The count is the number exported. |
| Templates.ReExportIsStable | src/renderer.js:1290-1297 | A rule with a non-empty category exports to the same entry after an import round trip. |
| Shortcuts.ModifierNames | src/renderer.js:955-958 | A modifier name is written exactly when its key is held. Control and Meta both write "CommandOrControl". |
| Shortcuts.ModifierNamesOrdered | src/renderer.js:955-958 | Only the three modifier names are written, each at most once, in the order CommandOrControl, Alt, Shift. |
| Shortcuts.CaptureWith | src/renderer.js:944-972 | Nothing happens unless recording. Escape closes the recorder. A shortcut is recorded exactly for a non-modifier key pressed with a modifier; anything else is ignored. |
| Shortcuts.CaptureShortcutAsWritten | src/renderer.js:944-975 | The recorder as written records exactly the presses the classification allows. It agrees with the corrected recorder on every key but `+`. |
| Shortcuts.CaptureShortcut | src/renderer.js:944-975 | The corrected half of the second Findings row: the same classification, and a `+` pressed with modifiers is recorded as those modifiers followed by "Plus". |
| Shortcuts.RecordedShortcutSplits | src/renderer.js:955-972 | A recorded shortcut splits at `+` into its modifier names followed by the key name, each non-empty. |
| Shortcuts.PlusKeyAsWritten | src/renderer.js:964-972 | As written, the `+` key records a shortcut whose last two tokens are empty. |
| Shortcuts.PlusKeyExample | src/renderer.js:964-972 | As written, Control, Shift and `+` record "CommandOrControl+Shift++". |
| Shortcuts.PlusKeyCorrected | src/renderer.js:964-972 | With the key named "Plus", the same press splits into its modifiers followed by "Plus". |
| Shortcuts.DefaultShortcutIsRecordable | src/renderer.js:955-972 | Control, Shift and `v` record exactly the default paste shortcut. |
| Shortcuts.FormatShortcutKeepsOthers | src/renderer.js:919-924 | A shortcut without "Command" or "Control" is shown unchanged. The lemma requires that the text holds no lower-case `o`. |
| Shortcuts.FormatShortcutShowsCtrl | src/renderer.js:919-924 | A leading "CommandOrControl" is shown as "Ctrl", and the rest is unchanged. |

## Left out

- Regular-expression syntax and matching are not modelled. A compiled pattern is abstract; the model assumes only that its matches are ordered, non-overlapping and inside the subject.
  - Named-group replacement tokens (`$<name>`) are not modelled.
  - Validity under `new RegExp(p)` is taken to be the same as under `new RegExp(p, 'gi')`.
- Case folding is a parameter of the engine. `toUpperCase` in the shortcut recorder folds only ASCII letters.
- Strings are sequences of code points, not UTF-16 code units. This affects three things for characters outside the Basic Multilingual Plane:
  - the sort order of categories;
  - the file-name sanitizer;
  - the match count of an empty literal pattern. The model's scan advances one code point past an empty match; JavaScript advances one UTF-16 unit.
- Keys and parameter names inherited from `Object.prototype` are not modelled. Examples are `constructor` in a lookup path or a `{constructor}` placeholder. Only own keys are found.
- Arrays reached by a translation lookup expose only their indices.
- Numbers are modelled as integers only. A JSON number carries no payload, since no number is ever returned as a translation.
- Disk, the persistent store, IPC, the DOM, alerts, console logging and the file download are left out. Each dialog is a parameter holding the user's answer.
- The id generator (clock plus randomness) is a parameter. Uniqueness is a precondition where a property needs it.
- `lastFilterCount` and `getLastFilterCount` keep a copy of the last count; that copy is not modelled.
- The settings window's cached rule and folder lists are taken to equal the store.
- Template entries are objects with string `pattern` and `replacement`, or `null`. Entries with missing or wrongly typed fields are not modelled.
- Parsing and writing JSON text is not modelled. A written document is taken to read back as the same values.
- Locale file paths are file names; path normalisation is not modelled.
- An update cannot change the id of a rule or of a folder: neither patch record has an `id` field. No call site sends one.
- Shortcuts.FormatShortcutKeepsOthers: stated only for shortcuts without a lower-case `o`. The arrow and Return keys ("Down", "Return") fall outside it.
- Shortcuts.FormatShortcutShowsCtrl: stated only when the text after the prefix holds no lower-case `o`.
- Locale.AvailableLocales: states the count of names and, through Locale.ListedLocaleHasFile, where each comes from. It does not state the text of a name whose `.json` also occurs earlier in the file name.

## Findings

| source | as written | input that shows it | evidently intended | confidence | as-written member | corrected member |
|---|---|---|---|---|---|---|
| src/renderer.js:291-293 | The "Uncategorized" group selects rules with `f.category === category \|\| 'Uncategorized' === category`. | Toggling "Uncategorized" with an uncategorized rule and a rule of category "Text" also switches the "Text" rule off. | Select the rules listed under the heading, whose label is `f.category \|\| 'Uncategorized'` (lines 217-222). | not executed | BulkActions.UncategorizedToggleOverreaches | BulkActions.ToggleSpec |
| src/renderer.js:964-972 | The pressed key is upper-cased and joined to the modifiers with `+`, so the `+` key itself gives `...++`. | Control, Shift and `+` (Shift and `=` on a US layout) record "CommandOrControl+Shift++". Split at `+`, its last two tokens are empty and no key is named. | Name the key "Plus", as Electron's accelerator syntax does, so the shortcut splits into its modifiers followed by one key name. | not executed | Shortcuts.PlusKeyAsWritten | Shortcuts.PlusKeyCorrected |
| src/renderer.js:1394-1396 | After deleting everything custom, the alert counts `customFolders` after `loadCustomFolders()` has reloaded it from the store. | A store with one custom rule and one folder: the alert reports 1 rule and 0 folders deleted. | Report the number of folders deleted, the length of the list before the reload. | not executed | BulkActions.DeleteAllCustomReportsNoFolders | BulkActions.DeleteAllCustom |

=== FILE: bulk_actions.dfy ===
/** The settings window's bulk actions over the rule list: toggling a whole
    category or folder, deleting a category, resetting a category or all
    built-in rules, and deleting everything custom. Each action selects rules
    from the list it last loaded (the store's own list) and then issues one
    store call per selected id, in order. */
module BulkActions {
  import opened Wrappers
  import opened Seqs
  import opened Rules
  import opened RuleStore
  import opened Ui

  // ---------------------------------------------------------------------
  // per-id loops
  // ---------------------------------------------------------------------

  /** The ids of `rs`, in order. */
  function Ids(rs: seq<FilterRule>): (r: seq<string>)
    ensures |r| == |rs|
    ensures forall k :: 0 <= k < |rs| ==> r[k] == rs[k].id
  {
    seq(|rs|, k requires 0 <= k < |rs| => rs[k].id)
  }

  /** One `update-filter` call per id with `{ enabled: v }`. */
  function SetEnabledEach(rules: seq<FilterRule>, ids: seq<string>, v: bool): (r: seq<FilterRule>)
    ensures |r| == |rules|
    decreases |ids|
  {
    if |ids| == 0 then rules
    else SetEnabledEach(UpdateFilter(rules, ids[0], EnabledPatch(v)), ids[1..], v)
  }

  /** One `delete-filter` call per id. */
  function DeleteEach(rules: seq<FilterRule>, ids: seq<string>): seq<FilterRule>
    decreases |ids|
  {
    if |ids| == 0 then rules else DeleteEach(DeleteFilter(rules, ids[0]), ids[1..])
  }

  /** `r` is `rules` with exactly the rules whose id is listed set to `v`. */
  predicate EnabledSetFor(rules: seq<FilterRule>, r: seq<FilterRule>, ids: seq<string>, v: bool) {
    |r| == |rules|
    && forall k :: 0 <= k < |rules| ==> r[k] == if rules[k].id in ids then rules[k].(enabled := v) else rules[k]
  }

  /** Missing from `ids` is missing from its head and from its tail. */
  lemma NotInCons(ids: seq<string>, s: string)
    requires |ids| > 0
    ensures (s != ids[0] && s !in ids[1..]) == (s !in ids)
  {
    assert ids == [ids[0]] + ids[1..];
  }

  /** With distinct ids, the enable loop sets exactly the listed rules. */
  lemma {:induction false} SetEnabledEachSpec(rules: seq<FilterRule>, ids: seq<string>, v: bool)
    requires UniqueIds(rules)
    ensures EnabledSetFor(rules, SetEnabledEach(rules, ids, v), ids, v)
    ensures UniqueIds(SetEnabledEach(rules, ids, v))
    decreases |ids|
  {
    if |ids| > 0 {
      var r1 := UpdateFilter(rules, ids[0], EnabledPatch(v));
      UpdateDeleteUnique(rules, ids[0], EnabledPatch(v));
      SetEnabledEachSpec(r1, ids[1..], v);
      var r := SetEnabledEach(rules, ids, v);
      forall k | 0 <= k < |rules|
        ensures r[k] == if rules[k].id in ids then rules[k].(enabled := v) else rules[k]
      {
        UpdateUniqueAt(rules, ids[0], EnabledPatch(v), k);
        NotInCons(ids, rules[k].id);
      }
    }
  }

  /** One deletion is a selection. */
  lemma DeleteIsKeep(rules: seq<FilterRule>, id: string)
    ensures DeleteFilter(rules, id) == Keep(rules, (x: FilterRule) => x.id != id)
  {
  }

  /** The delete loop removes every rule whose id is listed and keeps the
      others in order. */
  lemma {:induction false} DeleteEachSpec(rules: seq<FilterRule>, ids: seq<string>)
    ensures DeleteEach(rules, ids) == Keep(rules, (x: FilterRule) => x.id !in ids)
    decreases |ids|
  {
    var all := (x: FilterRule) => x.id !in ids;
    if |ids| == 0 {
      KeepAll(rules, all);
    } else {
      var p0 := (x: FilterRule) => x.id != ids[0];
      var q := (x: FilterRule) => x.id !in ids[1..];
      var kept := Keep(rules, p0);
      DeleteIsKeep(rules, ids[0]);
      DeleteEachSpec(kept, ids[1..]);
      forall k | 0 <= k < |rules| ensures all(rules[k]) == (p0(rules[k]) && q(rules[k])) {
        NotInCons(ids, rules[k].id);
      }
      KeepKeep(rules, p0, q, all);
    }
  }

  /** With distinct ids, a rule's id is among the selected ids exactly when
      the rule itself was selected. */
  lemma SelectedIdIff(rules: seq<FilterRule>, p: FilterRule -> bool, k: nat)
    requires UniqueIds(rules) && k < |rules|
    ensures rules[k].id in Ids(Keep(rules, p)) <==> p(rules[k])
  {
    var sel := Keep(rules, p);
    var ids := Ids(sel);
    if p(rules[k]) {
      assert rules[k] in sel;
      var j :| 0 <= j < |sel| && sel[j] == rules[k];
      assert ids[j] == rules[k].id;
    }
    if rules[k].id in ids {
      var j :| 0 <= j < |ids| && ids[j] == rules[k].id;
      assert sel[j] in sel;
      var i :| 0 <= i < |rules| && rules[i] == sel[j];
      assert i == k;
    }
  }

  /** With distinct ids, enabling by the ids of a selection enables exactly the
      selected rules. */
  lemma SetEnabledSelection(rules: seq<FilterRule>, p: FilterRule -> bool, v: bool)
    requires UniqueIds(rules)
    ensures var r := SetEnabledEach(rules, Ids(Keep(rules, p)), v);
            |r| == |rules|
            && (forall k :: 0 <= k < |rules| ==> r[k] == if p(rules[k]) then rules[k].(enabled := v) else rules[k])
            && UniqueIds(r)
  {
    SetEnabledEachSpec(rules, Ids(Keep(rules, p)), v);
    forall k | 0 <= k < |rules| ensures rules[k].id in Ids(Keep(rules, p)) <==> p(rules[k]) {
      SelectedIdIff(rules, p, k);
    }
  }

  /** With distinct ids, deleting by the ids of a selection deletes exactly
      the selected rules. */
  lemma DeleteSelection(rules: seq<FilterRule>, p: FilterRule -> bool)
    requires UniqueIds(rules)
    ensures DeleteEach(rules, Ids(Keep(rules, p))) == Keep(rules, (x: FilterRule) => !p(x))
  {
    var ids := Ids(Keep(rules, p));
    DeleteEachSpec(rules, ids);
    forall k | 0 <= k < |rules| ensures (rules[k].id !in ids) == !p(rules[k]) {
      SelectedIdIff(rules, p, k);
    }
    KeepCongruent(rules, (x: FilterRule) => x.id !in ids, (x: FilterRule) => !p(x));
  }

  // ---------------------------------------------------------------------
  // toggling a category or folder
  // ---------------------------------------------------------------------

  /** Every rule of `sel` is enabled (`every(f => f.enabled)`). */
  predicate AllEnabled(sel: seq<FilterRule>) {
    forall k :: 0 <= k < |sel| ==> sel[k].enabled
  }

  /** The group a rule outside folders is listed under: its category, or
      "Uncategorized" when the category is empty. */
  function GroupLabel(f: FilterRule): string {
    if f.category == "" then "Uncategorized" else f.category
  }

  /** The rules listed under a category group or a folder of the rule list. */
  predicate InGroup(f: FilterRule, group: string, isFolder: bool) {
    if isFolder then InFolder(f, group) else Unfoldered(f) && GroupLabel(f) == group
  }

  /** The selection `toggleCategoryFilters` makes, as written: for a category
      it also takes every rule outside folders when the group is
      "Uncategorized". */
  predicate ToggleSelectsAsWritten(f: FilterRule, group: string, isFolder: bool) {
    if isFolder then InFolder(f, group)
    else Unfoldered(f) && (f.category == group || "Uncategorized" == group)
  }

  /** Flips the selected rules to all-enabled, or to all-disabled when they
      already all are; an empty selection changes nothing. */
  function ToggleSelected(rules: seq<FilterRule>, sel: seq<FilterRule>): seq<FilterRule> {
    if |sel| == 0 then rules else SetEnabledEach(rules, Ids(sel), !AllEnabled(sel))
  }

  /** `toggleCategoryFilters(group, isFolder)` as written. */
  function ToggleCategoryFiltersAsWritten(rules: seq<FilterRule>, group: string, isFolder: bool): seq<FilterRule> {
    ToggleSelected(rules, Keep(rules, (f: FilterRule) => ToggleSelectsAsWritten(f, group, isFolder)))
  }

  /** `toggleCategoryFilters(group, isFolder)` selecting exactly the rules the
      list shows under the group. */
  function ToggleCategoryFilters(rules: seq<FilterRule>, group: string, isFolder: bool): seq<FilterRule> {
    ToggleSelected(rules, Keep(rules, (f: FilterRule) => InGroup(f, group, isFolder)))
  }

  /** The toggle as written is the corrected one for every folder and every
      category heading other than "Uncategorized": a heading label is never
      empty, so only that one group selects differently. */
  lemma ToggleAsWrittenAgrees(rules: seq<FilterRule>, group: string, isFolder: bool)
    requires isFolder || (group != "Uncategorized" && group != "")
    ensures ToggleCategoryFiltersAsWritten(rules, group, isFolder) == ToggleCategoryFilters(rules, group, isFolder)
  {
    KeepCongruent(rules, (f: FilterRule) => ToggleSelectsAsWritten(f, group, isFolder),
                         (f: FilterRule) => InGroup(f, group, isFolder));
  }

  /** Toggling a group sets every rule of the group to the opposite of "all
      enabled" and leaves every other rule alone. */
  lemma ToggleSpec(rules: seq<FilterRule>, group: string, isFolder: bool)
    requires UniqueIds(rules)
    ensures var sel := Keep(rules, (f: FilterRule) => InGroup(f, group, isFolder));
            var r := ToggleCategoryFilters(rules, group, isFolder);
            |r| == |rules| && UniqueIds(r)
            && forall k :: 0 <= k < |rules| ==>
                 r[k] == if InGroup(rules[k], group, isFolder) then rules[k].(enabled := !AllEnabled(sel)) else rules[k]
  {
    var p := (f: FilterRule) => InGroup(f, group, isFolder);
    var sel := Keep(rules, p);
    if |sel| == 0 {
      assert forall k :: 0 <= k < |rules| ==> !p(rules[k]);
    } else {
      SetEnabledSelection(rules, p, !AllEnabled(sel));
    }
  }

  /** After a toggle the group is uniformly on or off, so its checkbox shows
      the new state. */
  lemma ToggleMakesGroupUniform(rules: seq<FilterRule>, group: string, isFolder: bool)
    requires UniqueIds(rules)
    ensures var sel := Keep(rules, (f: FilterRule) => InGroup(f, group, isFolder));
            var r := ToggleCategoryFilters(rules, group, isFolder);
            forall k :: 0 <= k < |r| && InGroup(r[k], group, isFolder) ==> r[k].enabled == !AllEnabled(sel)
  {
    ToggleSpec(rules, group, isFolder);
  }

  /** Toggling a fully enabled, non-empty group switches all of it off. */
  lemma ToggleOff(rules: seq<FilterRule>, group: string, isFolder: bool)
    requires UniqueIds(rules)
    requires forall k :: 0 <= k < |rules| && InGroup(rules[k], group, isFolder) ==> rules[k].enabled
    ensures var r := ToggleCategoryFilters(rules, group, isFolder);
            |r| == |rules| && UniqueIds(r)
            && forall k :: 0 <= k < |rules| ==>
                 r[k] == if InGroup(rules[k], group, isFolder) then rules[k].(enabled := false) else rules[k]
  {
    var sel := Keep(rules, (f: FilterRule) => InGroup(f, group, isFolder));
    assert AllEnabled(sel) by {
      assert forall j :: 0 <= j < |sel| ==> sel[j] in sel;
    }
    ToggleSpec(rules, group, isFolder);
  }

  /** Toggling a group that has a disabled member switches all of it on. */
  lemma ToggleOn(rules: seq<FilterRule>, group: string, isFolder: bool, i: nat)
    requires UniqueIds(rules)
    requires i < |rules| && InGroup(rules[i], group, isFolder) && !rules[i].enabled
    ensures var r := ToggleCategoryFilters(rules, group, isFolder);
            |r| == |rules|
            && forall k :: 0 <= k < |rules| ==>
                 r[k] == if InGroup(rules[k], group, isFolder) then rules[k].(enabled := true) else rules[k]
  {
    var sel := Keep(rules, (f: FilterRule) => InGroup(f, group, isFolder));
    assert rules[i] in sel;
    assert !AllEnabled(sel);
    ToggleSpec(rules, group, isFolder);
  }

  /** One rule through an "off" toggle and then an "on" toggle of its group. */
  lemma OffThenOnRestores(f: FilterRule, group: string, isFolder: bool)
    requires InGroup(f, group, isFolder) ==> f.enabled
    ensures var f1 := if InGroup(f, group, isFolder) then f.(enabled := false) else f;
            (if InGroup(f1, group, isFolder) then f1.(enabled := true) else f1) == f
  {
  }

  /** Toggling a fully enabled group twice restores the list. */
  lemma ToggleTwiceRestores(rules: seq<FilterRule>, group: string, isFolder: bool)
    requires UniqueIds(rules)
    requires forall k :: 0 <= k < |rules| && InGroup(rules[k], group, isFolder) ==> rules[k].enabled
    ensures ToggleCategoryFilters(ToggleCategoryFilters(rules, group, isFolder), group, isFolder) == rules
  {
    ToggleOff(rules, group, isFolder);
    var r1 := ToggleCategoryFilters(rules, group, isFolder);
    if i :| 0 <= i < |rules| && InGroup(rules[i], group, isFolder) {
      ToggleOn(r1, group, isFolder, i);
      var r2 := ToggleCategoryFilters(r1, group, isFolder);
      forall k | 0 <= k < |rules| ensures r2[k] == rules[k] {
        OffThenOnRestores(rules[k], group, isFolder);
      }
    } else {
      ToggleSpec(r1, group, isFolder);
    }
  }

  /** The rules listed under "Uncategorized" and one listed under "Text". */
  const Unsorted := FilterRule("u", None, Some("a"), "x", "y", false, true, "Uncategorized", None, None)
  const Texty := FilterRule("t", None, Some("b"), "p", "q", false, true, "Text", None, None)

  /** As written, toggling the "Uncategorized" group also switches off a rule
      listed under "Text"; the corrected selection leaves it alone. */
  lemma UncategorizedToggleOverreaches()
    ensures GroupLabel(Texty) == "Text"
    ensures |ToggleCategoryFiltersAsWritten([Unsorted, Texty], "Uncategorized", false)| == 2
    ensures |ToggleCategoryFilters([Unsorted, Texty], "Uncategorized", false)| == 2
    ensures ToggleCategoryFiltersAsWritten([Unsorted, Texty], "Uncategorized", false)[1] == Texty.(enabled := false)
    ensures ToggleCategoryFilters([Unsorted, Texty], "Uncategorized", false)[1] == Texty
  {
    var rules := [Unsorted, Texty];
    assert UniqueIds(rules);
    var pw := (f: FilterRule) => ToggleSelectsAsWritten(f, "Uncategorized", false);
    assert Keep(rules, pw) == rules;
    assert AllEnabled(rules);
    SetEnabledEachSpec(rules, Ids(rules), false);
    assert Texty.id in Ids(rules);
    ToggleSpec(rules, "Uncategorized", false);
  }

  // ---------------------------------------------------------------------
  // deleting and resetting categories
  // ---------------------------------------------------------------------

  /** The rules `deleteCategory` and `resetCategory` look at: outside folders,
      with exactly that category. */
  predicate InCategory(f: FilterRule, category: string) {
    Unfoldered(f) && f.category == category
  }

  /** `deleteCategory(category)` with the user's answer to the confirmation:
      refused when a built-in rule is in the category, otherwise every rule
      of the category is deleted once confirmed. */
  function DeleteCategory(rules: seq<FilterRule>, category: string, confirmed: bool): (o: Outcome<seq<FilterRule>>)
    ensures o.Refused? <==> exists f :: f in rules && InCategory(f, category) && IsBuiltin(f)
    ensures o.Refused? ==> o.why == CannotDeleteDefault
    ensures o.Cancelled? <==> !o.Refused? && !confirmed
  {
    var sel := Keep(rules, (f: FilterRule) => InCategory(f, category));
    if exists k :: 0 <= k < |sel| && IsBuiltin(sel[k]) then
      assert exists f :: f in rules && InCategory(f, category) && IsBuiltin(f) by {
        var k :| 0 <= k < |sel| && IsBuiltin(sel[k]);
        assert sel[k] in sel;
      }
      Refused(CannotDeleteDefault)
    else
      assert !exists f :: f in rules && InCategory(f, category) && IsBuiltin(f) by {
        forall f | f in rules && InCategory(f, category) ensures !IsBuiltin(f) {
          assert f in sel;
        }
      }
      if !confirmed then Cancelled else Done(DeleteEach(rules, Ids(sel)))
  }

  /** A carried-out category deletion removes exactly the category's rules,
      keeps the rest in order, and the category is no longer listed. */
  lemma DeleteCategorySpec(rules: seq<FilterRule>, category: string)
    requires UniqueIds(rules)
    requires DeleteCategory(rules, category, true).Done?
    ensures var r := DeleteCategory(rules, category, true).value;
            r == Keep(rules, (f: FilterRule) => !InCategory(f, category))
            && GetFiltersByCategory(r, category) == []
            && category !in GetCategories(r)
  {
    var p := (f: FilterRule) => InCategory(f, category);
    DeleteSelection(rules, p);
    KeepCongruent(rules, (f: FilterRule) => !p(f), (f: FilterRule) => !InCategory(f, category));
    var r := Keep(rules, (f: FilterRule) => !InCategory(f, category));
    assert forall k :: 0 <= k < |r| ==> !(r[k].category == category && Unfoldered(r[k])) by {
      assert forall k :: 0 <= k < |r| ==> r[k] in r;
    }
    KeepNone(r, (x: FilterRule) => x.category == category && Unfoldered(x));
    CategoriesMatchQueries(r, category);
  }

  /** `resetCategory(category)` with the user's answer: once confirmed, every
      built-in rule of the category is enabled. */
  function ResetCategory(rules: seq<FilterRule>, category: string, confirmed: bool): (o: Outcome<seq<FilterRule>>)
    ensures o.Cancelled? <==> !confirmed
    ensures !o.Refused?
  {
    if !confirmed then Cancelled
    else
      var sel := Keep(rules, (f: FilterRule) => InCategory(f, category) && IsBuiltin(f));
      Done(SetEnabledEach(rules, Ids(sel), true))
  }

  /** A category reset enables exactly the category's built-in rules and
      leaves every other rule alone; resetting again changes nothing. */
  lemma ResetCategorySpec(rules: seq<FilterRule>, category: string)
    requires UniqueIds(rules)
    ensures var r := ResetCategory(rules, category, true).value;
            |r| == |rules| && UniqueIds(r)
            && (forall k :: 0 <= k < |rules| ==>
                  r[k] == if InCategory(rules[k], category) && IsBuiltin(rules[k]) then rules[k].(enabled := true) else rules[k])
            && ResetCategory(r, category, true).value == r
  {
    var p := (f: FilterRule) => InCategory(f, category) && IsBuiltin(f);
    SetEnabledSelection(rules, p, true);
    var r := ResetCategory(rules, category, true).value;
    SetEnabledSelection(r, p, true);
    var r2 := ResetCategory(r, category, true).value;
    forall k | 0 <= k < |r| ensures r2[k] == r[k] {
      if p(r[k]) {
        assert r[k].enabled;
      }
    }
  }

  // ---------------------------------------------------------------------
  // resetting all built-in rules, deleting everything custom
  // ---------------------------------------------------------------------

  /** `resetAllDefaults()` with the user's answer: once confirmed, every
      built-in rule is enabled; the count is what the alert reports. */
  function ResetAllDefaults(rules: seq<FilterRule>, confirmed: bool): (o: Outcome<(seq<FilterRule>, nat)>)
    ensures o.Cancelled? <==> !confirmed
    ensures !o.Refused?
    ensures o.Done? ==> o.value.1 == |Keep(rules, IsBuiltin)|
  {
    if !confirmed then Cancelled
    else
      var sel := Keep(rules, IsBuiltin);
      Done((SetEnabledEach(rules, Ids(sel), true), |sel|))
  }

  /** Resetting all defaults enables every built-in rule, changes nothing else
      about it, and leaves every custom rule as it was. */
  lemma ResetAllDefaultsSpec(rules: seq<FilterRule>)
    requires UniqueIds(rules)
    ensures var r := ResetAllDefaults(rules, true).value.0;
            |r| == |rules|
            && UniqueIds(r)
            && (forall k :: 0 <= k < |r| ==> r[k] == if IsBuiltin(rules[k]) then rules[k].(enabled := true) else rules[k])
            && (forall k :: 0 <= k < |r| && IsBuiltin(r[k]) ==> r[k].enabled)
  {
    SetEnabledSelection(rules, IsBuiltin, true);
  }

  /** A rule filed in one of the folders `ids`. */
  predicate InAnyFolder(f: FilterRule, ids: seq<string>) {
    f.folder.Some? && f.folder.value in ids
  }

  /** The ids of `folders`, in order. */
  function FolderIds(folders: seq<CustomFolder>): (r: seq<string>)
    ensures |r| == |folders|
    ensures forall k :: 0 <= k < |folders| ==> r[k] == folders[k].id
  {
    seq(|folders|, k requires 0 <= k < |folders| => folders[k].id)
  }

  /** One `delete-custom-folder` call per id. */
  function DeleteFolders(s: Store, ids: seq<string>): Store
    decreases |ids|
  {
    if |ids| == 0 then s else DeleteFolders(DeleteCustomFolder(s, ids[0]), ids[1..])
  }

  /** The folder loop removes the listed folders and every rule filed in one
      of them. */
  lemma {:induction false} DeleteFoldersSpec(s: Store, ids: seq<string>)
    ensures var r := DeleteFolders(s, ids);
            && r.settings == s.settings
            && (forall x :: x in r.filters <==> x in s.filters && !InAnyFolder(x, ids))
            && r.customFolders == Keep(s.customFolders, (f: CustomFolder) => f.id !in ids)
    decreases |ids|
  {
    var all := (f: CustomFolder) => f.id !in ids;
    if |ids| == 0 {
      KeepAll(s.customFolders, all);
    } else {
      var s1 := DeleteCustomFolder(s, ids[0]);
      DeleteFoldersSpec(s1, ids[1..]);
      assert ids == [ids[0]] + ids[1..];
      var p0 := (f: CustomFolder) => f.id != ids[0];
      var q := (f: CustomFolder) => f.id !in ids[1..];
      assert s1.customFolders == Keep(s.customFolders, p0);
      forall k | 0 <= k < |s.customFolders| ensures all(s.customFolders[k]) == (p0(s.customFolders[k]) && q(s.customFolders[k])) {
        NotInCons(ids, s.customFolders[k].id);
      }
      KeepKeep(s.customFolders, p0, q, all);
    }
  }

  /** `deleteAllCustom()` over the rule list and folder list the window last
      loaded, with the user's answer: refused when there is no custom rule;
      otherwise every custom rule is deleted and then every folder, which
      takes the rules filed in it along. The counts are those the alert
      should report: the custom rules and the folders that were deleted. */
  function DeleteAllCustom(s: Store, confirmed: bool): (o: Outcome<(Store, nat, nat)>)
    ensures o.Refused? <==> forall k :: 0 <= k < |s.filters| ==> IsBuiltin(s.filters[k])
    ensures o.Refused? ==> o.why == NoCustomFilters
    ensures o.Cancelled? <==> !o.Refused? && !confirmed
    ensures o.Done? ==> o.value.1 == |UserRules(s.filters)| && o.value.2 == |s.customFolders|
  {
    var custom := UserRules(s.filters);
    if |custom| == 0 then
      assert forall k :: 0 <= k < |s.filters| ==> IsBuiltin(s.filters[k]) by {
        assert forall k :: 0 <= k < |s.filters| ==> s.filters[k] in s.filters;
      }
      Refused(NoCustomFilters)
    else
      assert custom[0] in custom;
      if !confirmed then Cancelled
      else
        var s1 := s.(filters := DeleteEach(s.filters, Ids(custom)));
        Done((DeleteFolders(s1, FolderIds(s.customFolders)), |custom|, |s.customFolders|))
  }

  /** `deleteAllCustom()` as written: the alert reads the folder list after
      `loadCustomFolders()` has reloaded it from the store, so the folder
      count is that of the folders left. */
  function DeleteAllCustomAsWritten(s: Store, confirmed: bool): (o: Outcome<(Store, nat, nat)>)
    ensures o.Done? ==> o.value.2 == |o.value.0.customFolders|
    ensures o.Done? <==> DeleteAllCustom(s, confirmed).Done?
    ensures o.Done? ==> o.value.0 == DeleteAllCustom(s, confirmed).value.0
                        && o.value.1 == DeleteAllCustom(s, confirmed).value.1
    ensures !o.Done? ==> o == DeleteAllCustom(s, confirmed)
  {
    match DeleteAllCustom(s, confirmed)
    case Done((r, rules, _)) => Done((r, rules, |r.customFolders|))
    case Refused(why) => Refused(why)
    case Cancelled => Cancelled
  }

  /** Deleting every folder of the list leaves none. */
  lemma DeleteEveryFolder(s: Store, folders: seq<CustomFolder>)
    requires folders == s.customFolders
    ensures DeleteFolders(s, FolderIds(folders)).customFolders == []
  {
    var ids := FolderIds(folders);
    DeleteFoldersSpec(s, ids);
    var r := DeleteFolders(s, ids);
    KeepNone(folders, (f: CustomFolder) => f.id !in ids);
  }

  /** After deleting everything custom, no folder is left, the remaining rules
      are the built-in ones that were not filed in a folder, and the settings
      are untouched. */
  lemma DeleteAllCustomSpec(s: Store)
    requires UniqueIds(s.filters)
    requires DeleteAllCustom(s, true).Done?
    ensures var r := DeleteAllCustom(s, true).value.0;
            && r.customFolders == []
            && DeleteAllCustom(s, true).value.2 == |s.customFolders| - |r.customFolders|
            && r.settings == s.settings
            && (forall x :: x in r.filters <==> x in s.filters && IsBuiltin(x) && !InAnyFolder(x, FolderIds(s.customFolders)))
  {
    var custom := UserRules(s.filters);
    var s1 := s.(filters := DeleteEach(s.filters, Ids(custom)));
    var ids := FolderIds(s.customFolders);
    assert DeleteAllCustom(s, true).value.0 == DeleteFolders(s1, ids);
    DeleteSelection(s.filters, (f: FilterRule) => !IsBuiltin(f));
    assert forall x :: x in s1.filters <==> x in s.filters && IsBuiltin(x);
    DeleteFoldersSpec(s1, ids);
    DeleteEveryFolder(s1, s.customFolders);
  }

  /** As written, the alert after deleting everything custom always reports 0
      folders, and so differs from the number deleted whenever there was a
      folder. */
  lemma DeleteAllCustomReportsNoFolders(s: Store)
    requires DeleteAllCustomAsWritten(s, true).Done?
    ensures DeleteAllCustomAsWritten(s, true).value.2 == 0
    ensures |s.customFolders| > 0 ==> DeleteAllCustomAsWritten(s, true).value.2 != DeleteAllCustom(s, true).value.2
  {
    var s1 := s.(filters := DeleteEach(s.filters, Ids(UserRules(s.filters))));
    assert DeleteAllCustom(s, true).value.0 == DeleteFolders(s1, FolderIds(s.customFolders));
    DeleteEveryFolder(s1, s.customFolders);
  }
}

=== FILE: filter_engine.dfy ===
/** `FilterManager.filterText`: the enabled rules, in stored order, folded over
    the text; each rule counts its matches in the current text and then
    replaces them. */
module FilterEngine {
  import opened Wrappers
  import opened Seqs
  import opened Rules
  import opened Regex

  /** `{ filtered, count }`. */
  datatype Outcome = Outcome(filtered: string, count: nat)

  /** One `match` + `replace` pair over a global regex whose matches in `text`
      are `hs`: nothing happens when there is no match. */
  function MatchStep(hs: seq<Hit>, text: string, rep: string): (o: Outcome)
    requires WellFormed(hs, |text|)
    ensures o.count == |hs|
    ensures o.filtered == ReplaceAll(text, hs, rep)
  {
    if |hs| == 0 then Outcome(text, 0) else Outcome(ReplaceAll(text, hs, rep), |hs|)
  }

  /** The effect of one enabled rule on the current text. A pattern rule whose
      pattern does not compile is skipped. A literal rule compiles its
      escaped pattern, which always succeeds. */
  function ApplyRule(e: Engine, r: FilterRule, text: string): Outcome
    requires ValidEngine(e)
  {
    if r.useRegex then
      match e.compile(r.pattern)
      case None => Outcome(text, 0)
      case Some(m) => MatchStep(m.hits(text), text, r.replacement)
    else
      EscapedCompiles(e.canon, r.pattern, text);
      var m := CompileLiteral(e.canon, EscapeRegex(r.pattern)).value;
      MatchStep(m.hits(text), text, r.replacement)
  }

  /** The rules `filterText` consults: the enabled ones, in stored order. */
  function EnabledRules(rules: seq<FilterRule>): (r: seq<FilterRule>)
    ensures forall x :: x in r <==> x in rules && x.enabled
  {
    Keep(rules, (x: FilterRule) => x.enabled)
  }

  /** The loop of `filterText` after the rules `rs`: a left fold threading the
      text through each rule and summing the per-rule counts. */
  function RunRules(e: Engine, rs: seq<FilterRule>, text: string): Outcome
    requires ValidEngine(e)
    decreases |rs|
  {
    if |rs| == 0 then Outcome(text, 0)
    else
      var prev := RunRules(e, rs[..|rs| - 1], text);
      var step := ApplyRule(e, rs[|rs| - 1], prev.filtered);
      Outcome(step.filtered, prev.count + step.count)
  }

  /** `filterText(text)`: the empty text comes back unchanged with count 0
      before any rule is consulted. */
  function FilterText(e: Engine, rules: seq<FilterRule>, text: string): (o: Outcome)
    requires ValidEngine(e)
    ensures text == "" ==> o == Outcome(text, 0)
    ensures text != "" ==> o == RunRules(e, EnabledRules(rules), text)
  {
    if text == "" then Outcome(text, 0) else RunRules(e, EnabledRules(rules), text)
  }

  /** `filterText` as the source writes it: a loop over the enabled rules
      accumulating the count. It computes the fold. */
  method FilterTextLoop(e: Engine, rules: seq<FilterRule>, text: string) returns (filtered: string, count: nat)
    requires ValidEngine(e)
    ensures Outcome(filtered, count) == FilterText(e, rules, text)
    ensures text == "" ==> filtered == text && count == 0
  {
    if text == "" {
      return text, 0;
    }
    var result := text;
    var total: nat := 0;
    var enabled := EnabledRules(rules);
    var i := 0;
    while i < |enabled|
      invariant 0 <= i <= |enabled|
      invariant Outcome(result, total) == RunRules(e, enabled[..i], text)
    {
      var step := ApplyRule(e, enabled[i], result);
      assert enabled[..i + 1][..i] == enabled[..i];
      result := step.filtered;
      total := total + step.count;
      i := i + 1;
    }
    assert enabled[..i] == enabled;
    return result, total;
  }

  // ---------------------------------------------------------------------
  // properties of the fold
  // ---------------------------------------------------------------------

  /** Running one more rule applies it to the output of the others. */
  lemma RunRulesSnoc(e: Engine, rs: seq<FilterRule>, r: FilterRule, text: string)
    requires ValidEngine(e)
    ensures var prev := RunRules(e, rs, text);
            var step := ApplyRule(e, r, prev.filtered);
            RunRules(e, rs + [r], text) == Outcome(step.filtered, prev.count + step.count)
  {
    assert (rs + [r])[..|rs|] == rs;
  }

  /** Sequential chaining: running `a + b` runs `b` on the output of `a`, and
      the counts add up. */
  lemma {:induction false} RunRulesAppend(e: Engine, a: seq<FilterRule>, b: seq<FilterRule>, text: string)
    requires ValidEngine(e)
    ensures var o1 := RunRules(e, a, text);
            var o2 := RunRules(e, b, o1.filtered);
            RunRules(e, a + b, text) == Outcome(o2.filtered, o1.count + o2.count)
    decreases |b|
  {
    if |b| == 0 {
      assert a + b == a;
    } else {
      var init := b[..|b| - 1];
      var last := b[|b| - 1];
      assert b == init + [last];
      assert a + b == (a + init) + [last];
      RunRulesAppend(e, a, init, text);
      RunRulesSnoc(e, a + init, last, text);
      RunRulesSnoc(e, init, last, RunRules(e, a, text).filtered);
    }
  }

  /** A rule that leaves text and count alone can be dropped from the fold. */
  lemma RunRulesSkip(e: Engine, a: seq<FilterRule>, r: FilterRule, b: seq<FilterRule>, text: string)
    requires ValidEngine(e)
    requires forall t :: ApplyRule(e, r, t) == Outcome(t, 0)
    ensures RunRules(e, a + [r] + b, text) == RunRules(e, a + b, text)
  {
    RunRulesAppend(e, a + [r], b, text);
    RunRulesAppend(e, a, [r], text);
    assert [r][..0] == [];
    RunRulesAppend(e, a, b, text);
  }

  /** A disabled rule changes neither the text nor the count, wherever it sits. */
  lemma FilterTextIgnoresDisabled(e: Engine, a: seq<FilterRule>, r: FilterRule, b: seq<FilterRule>, text: string)
    requires ValidEngine(e)
    requires !r.enabled
    ensures FilterText(e, a + [r] + b, text) == FilterText(e, a + b, text)
  {
    var p := (x: FilterRule) => x.enabled;
    KeepAppend(a + [r], b, p);
    KeepAppend(a, [r], p);
    KeepAppend(a, b, p);
    assert Keep([r], p) == [];
    assert Keep(a, p) + [] == Keep(a, p);
  }

  /** A pattern rule whose pattern does not compile is skipped: it changes
      neither the text nor the count and later rules still apply. */
  lemma FilterTextSkipsInvalidPattern(e: Engine, a: seq<FilterRule>, r: FilterRule, b: seq<FilterRule>, text: string)
    requires ValidEngine(e)
    requires r.useRegex && e.compile(r.pattern).None?
    ensures FilterText(e, a + [r] + b, text) == FilterText(e, a + b, text)
  {
    var p := (x: FilterRule) => x.enabled;
    KeepAppend(a + [r], b, p);
    KeepAppend(a, [r], p);
    KeepAppend(a, b, p);
    if r.enabled {
      assert Keep([r], p) == [r];
      RunRulesSkip(e, Keep(a, p), r, Keep(b, p), text);
    } else {
      assert Keep([r], p) == [];
      assert Keep(a, p) + [] == Keep(a, p);
    }
  }

  /** Filtering with the rules `a + b` filters with `a` and then runs the
      enabled rules of `b` on the result; the count is the sum. */
  lemma FilterTextChain(e: Engine, a: seq<FilterRule>, b: seq<FilterRule>, text: string)
    requires ValidEngine(e)
    requires text != ""
    ensures var o1 := FilterText(e, a, text);
            var o2 := RunRules(e, EnabledRules(b), o1.filtered);
            FilterText(e, a + b, text) == Outcome(o2.filtered, o1.count + o2.count)
  {
    KeepAppend(a, b, (x: FilterRule) => x.enabled);
    RunRulesAppend(e, EnabledRules(a), EnabledRules(b), text);
  }

  /** A single enabled rule: filtering is that rule's step. */
  lemma FilterTextSingle(e: Engine, r: FilterRule, text: string)
    requires ValidEngine(e)
    requires r.enabled && text != ""
    ensures FilterText(e, [r], text) == ApplyRule(e, r, text)
  {
    assert EnabledRules([r]) == [r];
    assert [r][..0] == [];
    assert RunRules(e, [], text) == Outcome(text, 0);
  }

  // ---------------------------------------------------------------------
  // literal rules
  // ---------------------------------------------------------------------

  /** A literal rule matches exactly the case-insensitive occurrences of its
      pattern, found left to right without overlap, and the count is their
      number. */
  lemma LiteralRuleStep(e: Engine, r: FilterRule, text: string)
    requires ValidEngine(e)
    requires !r.useRegex
    ensures var hs := LiteralHits(e.canon, r.pattern, text);
            && ApplyRule(e, r, text) == MatchStep(hs, text, r.replacement)
            && ApplyRule(e, r, text).count == |hs|
            && (forall k :: 0 <= k < |hs| ==>
                  hs[k].end == hs[k].start + |r.pattern| && MatchesAt(e.canon, r.pattern, text, hs[k].start))
            && (forall i :: MatchesAt(e.canon, r.pattern, text, i) ==> Covered(hs, i))
  {
    var hs := LiteralHits(e.canon, r.pattern, text);
    forall i | MatchesAt(e.canon, r.pattern, text, i) ensures Covered(hs, i) {
      LiteralHitsComplete(e.canon, r.pattern, text, 0, i);
    }
  }

  /** With a `$`-free replacement a literal rule inserts the replacement
      verbatim for each match, so the length changes by
      `|replacement| - |pattern|` per match. */
  lemma LiteralRuleLength(e: Engine, r: FilterRule, text: string)
    requires ValidEngine(e)
    requires !r.useRegex && '$' !in r.replacement
    ensures var o := ApplyRule(e, r, text);
            |o.filtered| == |text| + o.count * (|r.replacement| - |r.pattern|)
  {
    var hs := LiteralHits(e.canon, r.pattern, text);
    assert ApplyRule(e, r, text) == MatchStep(hs, text, r.replacement);
    ReplaceFromLength(text, hs, r.replacement, 0, |r.pattern|);
  }
}

=== FILE: filter_examples.dfy ===
/** Worked instances of `filterText` on literal rules under the ASCII case
    fold: case-insensitive matching, chaining of rules in order, and a
    disabled rule dropping out of the chain. */
module FilterExamples {
  import opened Wrappers
  import opened Rules
  import opened Regex
  import opened FilterEngine

  /** Folds the ASCII upper-case letters onto lower case. */
  function AsciiFold(c: char): char {
    if 'A' <= c <= 'Z' then (c as int + 32) as char else c
  }

  /** An engine that compiles no pattern-mode rule; only literal rules apply. */
  const LiteralOnly := Engine(p => None, AsciiFold)

  /** An enabled literal rule from `pat` to `rep`. */
  function LiteralRule(id: string, pat: string, rep: string): FilterRule {
    FilterRule(id, None, None, pat, rep, false, true, "Custom", None, None)
  }

  /** The text and pattern of the case-insensitive example. */
  const FooText := "Foo bar foo"
  const FooPat := "foo"

  /** One scan step from a position where the pattern does not occur. */
  lemma SkipAt(from: nat)
    requires from + 3 <= 11
    requires AsciiFold(FooText[from]) != 'f'
    ensures LiteralHitsFrom(AsciiFold, FooPat, FooText, from) == LiteralHitsFrom(AsciiFold, FooPat, FooText, from + 1)
  {
    assert !MatchesAt(AsciiFold, FooPat, FooText, from) by {
      assert AsciiFold(FooText[from + 0]) != AsciiFold(FooPat[0]);
    }
  }

  /** One scan step from a position where the pattern occurs. */
  lemma HitAt(from: nat)
    requires from + 3 <= 11
    requires MatchesAt(AsciiFold, FooPat, FooText, from)
    ensures LiteralHitsFrom(AsciiFold, FooPat, FooText, from)
            == [Hit(from, from + 3, [])] + LiteralHitsFrom(AsciiFold, FooPat, FooText, from + 3)
  {
  }

  /** The pattern occurs at 0 ("Foo") and at 8 ("foo"). */
  lemma FooOccurs()
    ensures MatchesAt(AsciiFold, FooPat, FooText, 0)
    ensures MatchesAt(AsciiFold, FooPat, FooText, 8)
  {
    assert FooText[0] == 'F' && FooText[1] == 'o' && FooText[2] == 'o';
    assert FooText[8] == 'f' && FooText[9] == 'o' && FooText[10] == 'o';
  }

  /** The matches of "foo" in "Foo bar foo". */
  lemma FooHits()
    ensures LiteralHits(AsciiFold, FooPat, FooText) == [Hit(0, 3, []), Hit(8, 11, [])]
  {
    assert LiteralHitsFrom(AsciiFold, FooPat, FooText, 11) == [];
    FooOccurs();
    HitAt(8);
    SkipAt(7); SkipAt(6); SkipAt(5); SkipAt(4); SkipAt(3);
    HitAt(0);
  }

  /** Replacing both matches by "X". */
  lemma FooReplaced()
    ensures ReplaceAll(FooText, [Hit(0, 3, []), Hit(8, 11, [])], "X") == "X bar X"
  {
    var hs := [Hit(0, 3, []), Hit(8, 11, [])];
    SubstitutionPlain("X", FooText, hs[0]);
    SubstitutionPlain("X", FooText, hs[1]);
    assert hs[1..][1..] == [];
    assert ReplaceFrom(FooText, hs[1..][1..], "X", 11) == "";
    assert ReplaceFrom(FooText, hs[1..], "X", 3) == " bar X";
  }

  /** A literal rule matches case-insensitively: "foo" -> "X" turns
      "Foo bar foo" into "X bar X" with two matches. */
  lemma CaseInsensitiveLiteral()
    ensures FilterText(LiteralOnly, [LiteralRule("r", FooPat, "X")], FooText) == Outcome("X bar X", 2)
  {
    var r := LiteralRule("r", FooPat, "X");
    FilterTextSingle(LiteralOnly, r, FooText);
    LiteralRuleStep(LiteralOnly, r, FooText);
    FooHits();
    FooReplaced();
  }

  /** A non-empty pattern matches a text equal to it exactly once. */
  lemma WholeHit(pat: string)
    requires |pat| > 0
    ensures LiteralHits(AsciiFold, pat, pat) == [Hit(0, |pat|, [])]
  {
    assert MatchesAt(AsciiFold, pat, pat, 0);
    assert LiteralHitsFrom(AsciiFold, pat, pat, |pat|) == [];
  }

  /** One literal rule rewriting a whole text equal to its pattern. */
  lemma WholeRewrite(pat: string, rep: string)
    requires |pat| > 0 && '$' !in rep
    ensures ApplyRule(LiteralOnly, LiteralRule("r", pat, rep), pat) == Outcome(rep, 1)
  {
    var r := LiteralRule("r", pat, rep);
    LiteralRuleStep(LiteralOnly, r, pat);
    WholeHit(pat);
    var hs := [Hit(0, |pat|, [])];
    SubstitutionPlain(rep, pat, hs[0]);
    assert ReplaceFrom(pat, hs[1..], rep, |pat|) == "";
  }

  /** Rules apply in stored order, each on the output of the previous one: a
      rule rewriting `p` to `q` followed by one rewriting `q` to `s` turns `p`
      into `s` with two replacements. */
  lemma {:induction false} ChainOfTwo(a: FilterRule, b: FilterRule, p: string, q: string, s: string)
    requires a == LiteralRule("a", p, q) && b == LiteralRule("b", q, s)
    requires |p| > 0 && |q| > 0 && '$' !in q && '$' !in s
    ensures FilterText(LiteralOnly, [a] + [b], p) == Outcome(s, 2)
  {
    FilterTextSingle(LiteralOnly, a, p);
    WholeRewrite(p, q);
    var o1 := FilterText(LiteralOnly, [a], p);
    assert o1 == Outcome(q, 1);
    assert EnabledRules([b]) == [b];
    RunOne(b, q);
    WholeRewrite(q, s);
    FilterTextChain(LiteralOnly, [a], [b], p);
  }

  /** Running a single rule is applying it. */
  lemma RunOne(r: FilterRule, text: string)
    ensures RunRules(LiteralOnly, [r], text) == ApplyRule(LiteralOnly, r, text)
  {
    assert [r][..0] == [];
  }

  /** A disabled rule between the two changes nothing. */
  lemma {:induction false} ChainOfTwoWithDisabled(a: FilterRule, x: FilterRule, b: FilterRule, p: string, q: string, s: string)
    requires a == LiteralRule("a", p, q) && b == LiteralRule("b", q, s) && !x.enabled
    requires |p| > 0 && |q| > 0 && '$' !in q && '$' !in s
    ensures FilterText(LiteralOnly, [a] + [x] + [b], p) == Outcome(s, 2)
  {
    ChainOfTwo(a, b, p, q, s);
    FilterTextIgnoresDisabled(LiteralOnly, [a], x, [b], p);
  }

  /** "cat" -> "dog" followed by "dog" -> "fish" turns "cat" into "fish". */
  lemma CatDogFish()
    ensures FilterText(LiteralOnly, [LiteralRule("a", "cat", "dog"), LiteralRule("b", "dog", "fish")], "cat")
            == Outcome("fish", 2)
  {
    var a := LiteralRule("a", "cat", "dog");
    var b := LiteralRule("b", "dog", "fish");
    ChainOfTwo(a, b, "cat", "dog", "fish");
    assert [a] + [b] == [a, b];
  }
}

=== FILE: filter_form.dfy ===
/** The rule editor of the settings window: the form is checked field by
    field, then submitted either as an update of the rule being edited or as
    a new rule. */
module FilterForm {
  import opened Wrappers
  import opened Strings
  import opened Rules
  import opened RuleStore
  import opened Regex
  import opened Ui

  /** The editor's fields. The folder select holds "" for "no folder". */
  datatype Form = Form(
    description: string,
    folderId: string,
    pattern: string,
    replacement: string,
    useRegex: bool,
    enabled: bool)

  /** `folderId || undefined`. */
  function FormFolder(f: Form): (r: Option<string>)
    ensures r == None <==> f.folderId == ""
    ensures r.Some? ==> r.value == f.folderId
  {
    if f.folderId == "" then None else Some(f.folderId)
  }

  /** The record the form submits: every editable field, the category forced
      to "Custom", and the folder. The built-in key and the subcategory are not
      part of it. */
  function FormData(f: Form): RulePatch {
    RulePatch(Absent, Present(Some(f.description)), Present(f.pattern), Present(f.replacement),
              Present(f.useRegex), Present(f.enabled), Present("Custom"), Absent, Present(FormFolder(f)))
  }

  /** The same record when it is added as a new rule: the fields it does not
      carry are undefined. */
  function FormTemplate(f: Form): RuleTemplate {
    RuleTemplate(None, Some(f.description), f.pattern, f.replacement, f.useRegex, f.enabled,
                 "Custom", None, FormFolder(f))
  }

  /** The first check the form fails, in the order the editor makes them. The
      pattern test uses the engine's compiler: the `g` and `i` flags that
      `filterText` adds do not change which patterns are accepted. */
  function Check(e: Engine, f: Form): (r: Option<Refusal>)
    ensures r == Some(DescriptionRequired) <==> IsBlank(f.description)
    ensures r == Some(PatternRequired) <==> !IsBlank(f.description) && IsBlank(f.pattern)
    ensures r == Some(InvalidRegex) <==>
              !IsBlank(f.description) && !IsBlank(f.pattern) && f.useRegex && e.compile(f.pattern).None?
    ensures r == None <==>
              !IsBlank(f.description) && !IsBlank(f.pattern) && (f.useRegex ==> e.compile(f.pattern).Some?)
  {
    TrimEmptyIffBlank(f.description);
    TrimEmptyIffBlank(f.pattern);
    if Trim(f.description) == "" then Some(DescriptionRequired)
    else if Trim(f.pattern) == "" then Some(PatternRequired)
    else if f.useRegex && e.compile(f.pattern).None? then Some(InvalidRegex)
    else None
  }

  /** `saveFilter`: a form that fails a check changes nothing; otherwise the
      rule whose id is `editingId` is updated when that id is truthy, and a
      rule with the fresh id `newId` is added when it is not. */
  function SaveFilter(e: Engine, rules: seq<FilterRule>, f: Form, editingId: Option<string>, newId: string)
    : (o: Outcome<seq<FilterRule>>)
    ensures !o.Cancelled?
    ensures o.Refused? <==> Check(e, f).Some?
    ensures o.Refused? ==> o.why == Check(e, f).value
    ensures o.Done? ==> |o.value| == if Truthy(editingId) then |rules| else |rules| + 1
  {
    match Check(e, f)
    case Some(why) => Refused(why)
    case None =>
      if Truthy(editingId) then Done(UpdateFilter(rules, editingId.value, FormData(f)))
      else Done(AddFilter(rules, FormTemplate(f), newId))
  }

  /** Adding: the store gains one rule at the end, a custom rule in category
      "Custom" carrying the form's fields, outside every folder exactly when no
      folder was chosen. */
  lemma SaveAddsCustomRule(e: Engine, rules: seq<FilterRule>, f: Form, editingId: Option<string>, newId: string)
    requires Check(e, f) == None && !Truthy(editingId)
    ensures var o := SaveFilter(e, rules, f, editingId, newId);
      && o.Done? && |o.value| == |rules| + 1 && o.value[..|rules|] == rules
      && var x := o.value[|rules|];
      && x.id == newId && !IsBuiltin(x) && x.category == "Custom"
      && x.description == Some(f.description) && x.pattern == f.pattern && x.replacement == f.replacement
      && x.useRegex == f.useRegex && x.enabled == f.enabled
      && (Unfoldered(x) <==> f.folderId == "")
      && (f.folderId != "" ==> InFolder(x, f.folderId))
  {
  }

  /** Editing changes the form's fields of a rule and keeps what the form does
      not show: the id, the built-in key and the subcategory. An edited
      built-in rule therefore stays built-in while it moves to "Custom". */
  lemma EditKeepsIdentity(r: FilterRule, f: Form)
    ensures Template(PatchRule(r, FormData(f)))
            == FormTemplate(f).(descriptionKey := r.descriptionKey, subcategory := r.subcategory)
    ensures PatchRule(r, FormData(f)).id == r.id
    ensures IsBuiltin(PatchRule(r, FormData(f))) == IsBuiltin(r)
  {
  }

  /** Editing, with distinct ids: the rule carrying the edited id is patched in
      place and every other rule is unchanged. */
  lemma SaveEditsInPlace(e: Engine, rules: seq<FilterRule>, f: Form, editingId: Option<string>, newId: string)
    requires Check(e, f) == None && Truthy(editingId) && UniqueIds(rules)
    ensures var o := SaveFilter(e, rules, f, editingId, newId);
      && o.Done? && |o.value| == |rules|
      && UniqueIds(o.value)
      && forall k :: 0 <= k < |rules| ==>
           o.value[k] == if rules[k].id == editingId.value then PatchRule(rules[k], FormData(f)) else rules[k]
  {
    var o := SaveFilter(e, rules, f, editingId, newId);
    forall k | 0 <= k < |rules|
      ensures o.value[k] == if rules[k].id == editingId.value then PatchRule(rules[k], FormData(f)) else rules[k]
    {
      UpdateUniqueAt(rules, editingId.value, FormData(f), k);
    }
    UpdateDeleteUnique(rules, editingId.value, FormData(f));
  }

  /** Saving an edit of a rule that no longer exists leaves the rules as they were. */
  lemma SaveStaleEdit(e: Engine, rules: seq<FilterRule>, f: Form, editingId: Option<string>, newId: string)
    requires Check(e, f) == None && Truthy(editingId) && !HasId(rules, editingId.value)
    ensures SaveFilter(e, rules, f, editingId, newId) == Done(rules)
  {
  }

  /** A rule the editor saves is never one that `filterText` skips for an
      invalid pattern: whenever it is a pattern-mode rule, its pattern
      compiles, whether it was added or was the edited rule `r`. */
  lemma SavedPatternCompiles(e: Engine, f: Form, r: FilterRule, newId: string)
    requires Check(e, f) == None
    ensures var x := PatchRule(r, FormData(f)); x.useRegex ==> e.compile(x.pattern).Some?
    ensures var x := WithId(FormTemplate(f), newId); x.useRegex ==> e.compile(x.pattern).Some?
  {
  }
}

=== FILE: locale.dfy ===
/** `LocaleManager`: the current locale and its translation tree, switching
    locales, listing the available ones, and the translation function `t`
    (dotted-path lookup followed by `{name}` placeholder substitution). The
    locale directory is a parameter: a map from file name to its content. */
module Locale {
  import opened Wrappers
  import opened Seqs
  import opened Strings

  /** A parsed JSON value. Numbers carry no payload: no number ever becomes
      the result of a lookup. */
  datatype Json =
    | JString(s: string)
    | JNumber
    | JBool(b: bool)
    | JNull
    | JArray(items: seq<Json>)
    | JObject(fields: map<string, Json>)

  /** One file of the locale directory: parsed JSON, or a file whose read or
      parse throws. */
  datatype LocaleFile = Parsed(json: Json) | Broken

  /** The state of the locale manager. */
  datatype LocaleState = LocaleState(currentLocale: string, translations: Json)

  // ---------------------------------------------------------------------
  // lookup
  // ---------------------------------------------------------------------

  /** One step of the lookup loop: the property `k` of `v` when `v` is a
      truthy object that has it. An array has its in-range indices; its
      `length` and inherited members lead to a non-string, which the loop
      turns into the key itself just as a missing property does. */
  function Child(v: Json, k: string): (r: Option<Json>)
    ensures v.JObject? ==> (r.Some? <==> k in v.fields)
    ensures v.JObject? && k in v.fields ==> r == Some(v.fields[k])
    ensures !v.JObject? && !v.JArray? ==> r.None?
  {
    match v
    case JObject(m) => if k in m then Some(m[k]) else None
    case JArray(a) =>
      (match CanonicalIndex(k)
       case Some(i) => if i < |a| then Some(a[i]) else None
       case None => None)
    case _ => None
  }

  /** The loop over the key path: the value reached, or `None` when a step fails. */
  function Resolve(v: Json, path: seq<string>): Option<Json>
    decreases |path|
  {
    if |path| == 0 then Some(v)
    else
      match Child(v, path[0])
      case None => None
      case Some(c) => Resolve(c, path[1..])
  }

  /** The value of a parameter. */
  datatype ParamValue = PString(text: string) | PNumber(n: int)

  /** `String(v)` for a parameter value. */
  function Render(v: ParamValue): string {
    match v
    case PString(t) => t
    case PNumber(n) => IntToString(n)
  }

  /** `\w`: ASCII letters, digits and underscore. */
  predicate IsWordChar(c: char) {
    'a' <= c <= 'z' || 'A' <= c <= 'Z' || '0' <= c <= '9' || c == '_'
  }

  /** The length of the run of word characters at the start of `s`. */
  function WordRun(s: string): (n: nat)
    ensures n <= |s|
    ensures forall i :: 0 <= i < n ==> IsWordChar(s[i])
    ensures n < |s| ==> !IsWordChar(s[n])
    decreases |s|
  {
    if |s| > 0 && IsWordChar(s[0]) then 1 + WordRun(s[1..]) else 0
  }

  /** The length of a `{name}` placeholder at the start of `s`, or 0 when none
      starts there. `\w+` is greedy and cannot give back a word character to
      meet the `}`, so the maximal run is the only candidate. */
  function PlaceholderAt(s: string): (n: nat)
    ensures n == 0 || (3 <= n <= |s| && s[0] == '{' && s[n - 1] == '}')
    ensures n > 0 ==> forall i :: 1 <= i < n - 1 ==> IsWordChar(s[i])
  {
    if |s| >= 3 && s[0] == '{' then
      var w := WordRun(s[1..]);
      if w > 0 && 1 + w < |s| && s[1 + w] == '}' then w + 2 else 0
    else 0
  }

  /** `value.replace(/\{(\w+)\}/g, fn)`: each placeholder, leftmost first and
      without overlap, becomes the rendered parameter of that name when one is
      given and stays as written otherwise. The inserted text is not scanned
      again. */
  function Substitute(s: string, params: map<string, ParamValue>): string
    decreases |s|
  {
    if |s| == 0 then ""
    else
      var n := PlaceholderAt(s);
      if n == 0 then [s[0]] + Substitute(s[1..], params)
      else
        var name := s[1..n - 1];
        (if name in params then Render(params[name]) else s[..n]) + Substitute(s[n..], params)
  }

  /** `t(key, params)`. */
  function T(st: LocaleState, key: string, params: Option<map<string, ParamValue>>): string {
    match Resolve(st.translations, Split(key, '.'))
    case Some(JString(s)) => if params.Some? then Substitute(s, params.value) else s
    case _ => key
  }

  // ---------------------------------------------------------------------
  // switching and listing locales
  // ---------------------------------------------------------------------

  /** The file name of a locale. */
  function FileOf(locale: string): string {
    locale + ".json"
  }

  /** `setLocale(locale)`: switches to the locale when its file exists and
      parses; otherwise the previous locale and translations stay. */
  function SetLocale(st: LocaleState, files: map<string, LocaleFile>, locale: string): (r: LocaleState)
    ensures FileOf(locale) in files && files[FileOf(locale)].Parsed? ==>
              r.currentLocale == locale && r.translations == files[FileOf(locale)].json
    ensures !(FileOf(locale) in files && files[FileOf(locale)].Parsed?) ==> r == st
  {
    if FileOf(locale) in files then
      match files[FileOf(locale)]
      case Parsed(j) => LocaleState(locale, j)
      case Broken => st
    else st
  }

  /** The constructor: English with an empty tree, then an attempt to load
      English. Until the first switch, lookups read `en.json` when it exists
      and parses, and an empty tree otherwise. */
  function InitialState(files: map<string, LocaleFile>): (r: LocaleState)
    ensures r.currentLocale == "en"
    ensures FileOf("en") in files && files[FileOf("en")].Parsed? ==> r.translations == files[FileOf("en")].json
    ensures !(FileOf("en") in files && files[FileOf("en")].Parsed?) ==> r.translations == JObject(map[])
  {
    SetLocale(LocaleState("en", JObject(map[])), files, "en")
  }

  /** `getAvailableLocales()`: the names of the `.json` files with the first
      `.json` removed; `None` is a directory that cannot be listed, which
      yields `["en"]`. */
  function AvailableLocales(listing: Option<seq<string>>): (r: seq<string>)
    ensures listing.None? ==> r == ["en"]
    ensures listing.Some? ==> |r| == |Keep(listing.value, (f: string) => EndsWith(f, ".json"))|
  {
    match listing
    case None => ["en"]
    case Some(files) =>
      var json := Keep(files, (f: string) => EndsWith(f, ".json"));
      seq(|json|, k requires 0 <= k < |json| => ReplaceFirst(json[k], ".json", ""))
  }

  // ---------------------------------------------------------------------
  // properties
  // ---------------------------------------------------------------------

  /** The translation tree holding `leaf` under the path `parts`. */
  function Nest(parts: seq<string>, leaf: Json): Json
    decreases |parts|
  {
    if |parts| == 0 then leaf else JObject(map[parts[0] := Nest(parts[1..], leaf)])
  }

  /** Resolving the path a tree was nested along reaches its leaf. */
  lemma {:induction false} ResolveNest(parts: seq<string>, leaf: Json)
    ensures Resolve(Nest(parts, leaf), parts) == Some(leaf)
    decreases |parts|
  {
    if |parts| > 0 {
      ResolveNest(parts[1..], leaf);
    }
  }

  /** A dotted key finds the string stored under its dot-free segments. */
  lemma DottedKeyFindsString(parts: seq<string>, s: string, locale: string)
    requires |parts| >= 1
    requires forall i :: 0 <= i < |parts| ==> '.' !in parts[i]
    ensures T(LocaleState(locale, Nest(parts, JString(s))), Join(parts, '.'), None) == s
  {
    SplitJoin(parts, '.');
    ResolveNest(parts, JString(s));
  }

  /** A key that resolves to nothing, or to something other than a string,
      comes back unchanged, parameters or not. */
  lemma MissingKeyIsEchoed(st: LocaleState, key: string, params: Option<map<string, ParamValue>>)
    requires !Resolve(st.translations, Split(key, '.')).Some? || !Resolve(st.translations, Split(key, '.')).value.JString?
    ensures T(st, key, params) == key
  {
  }

  /** In an empty tree every key is its own translation. */
  lemma EmptyTreeEchoes(locale: string, key: string, params: Option<map<string, ParamValue>>)
    ensures T(LocaleState(locale, JObject(map[])), key, params) == key
  {
  }

  /** A lookup through a string, number, boolean or `null` fails. */
  lemma {:induction false} ResolveThroughLeaf(v: Json, path: seq<string>)
    requires !v.JObject? && !v.JArray?
    requires |path| >= 1
    ensures Resolve(v, path) == None
  {
  }

  /** With no parameters to offer, every placeholder stays as written. */
  lemma {:induction false} SubstituteNothing(s: string)
    ensures Substitute(s, map[]) == s
    decreases |s|
  {
    if |s| > 0 {
      var n := PlaceholderAt(s);
      if n == 0 {
        SubstituteNothing(s[1..]);
        assert [s[0]] + s[1..] == s;
      } else {
        SubstituteNothing(s[n..]);
        assert s[..n] + s[n..] == s;
      }
    }
  }

  /** Passing an empty parameter object is the same as passing none. */
  lemma EmptyParamsAreNoParams(st: LocaleState, key: string)
    ensures T(st, key, Some(map[])) == T(st, key, None)
  {
    match Resolve(st.translations, Split(key, '.'))
    case Some(JString(s)) => SubstituteNothing(s);
    case _ =>
  }

  /** Text without a `{` is left alone. */
  lemma {:induction false} SubstituteNoBrace(s: string, params: map<string, ParamValue>)
    requires '{' !in s
    ensures Substitute(s, params) == s
    decreases |s|
  {
    if |s| > 0 {
      assert s[0] != '{' by { assert s[0] in s; }
      assert forall c :: c in s[1..] ==> c in s;
      SubstituteNoBrace(s[1..], params);
      assert [s[0]] + s[1..] == s;
    }
  }

  /** A placeholder followed by text: it is replaced by its parameter and the
      rest is substituted on its own. */
  lemma PlaceholderThen(name: string, rest: string, params: map<string, ParamValue>)
    requires |name| >= 1 && forall i :: 0 <= i < |name| ==> IsWordChar(name[i])
    requires name in params
    ensures Substitute("{" + name + "}" + rest, params) == Render(params[name]) + Substitute(rest, params)
  {
    var s := "{" + name + "}" + rest;
    assert s[1..][..|name|] == name;
    WordRunPrefix(name, s[1..]);
    assert s[1 + |name|] == '}';
    assert PlaceholderAt(s) == |name| + 2;
    assert s[1..|name| + 1] == name;
    assert s[|name| + 2..] == rest;
  }

  /** The word run of a word followed by a non-word character is the word. */
  lemma {:induction false} WordRunPrefix(w: string, s: string)
    requires |w| < |s| && s[..|w|] == w
    requires forall i :: 0 <= i < |w| ==> IsWordChar(w[i])
    requires !IsWordChar(s[|w|])
    ensures WordRun(s) == |w|
    decreases |w|
  {
    if |w| > 0 {
      assert s[0] == w[0];
      assert s[1..][..|w| - 1] == w[1..];
      WordRunPrefix(w[1..], s[1..]);
    }
  }

  /** The inserted text is not scanned again: a parameter whose value is
      itself a placeholder is inserted verbatim. */
  lemma SubstitutionIsOnePass()
    ensures Substitute("{a}", map["a" := PString("{b}"), "b" := PString("x")]) == "{b}"
  {
    PlaceholderThen("a", "", map["a" := PString("{b}"), "b" := PString("x")]);
    assert "{" + "a" + "}" + "" == "{a}";
  }

  /** A dotted key whose string holds placeholders: they are filled in from
      the parameters. */
  lemma DottedKeyWithParams(parts: seq<string>, s: string, locale: string, params: map<string, ParamValue>)
    requires |parts| >= 1
    requires forall i :: 0 <= i < |parts| ==> '.' !in parts[i]
    ensures T(LocaleState(locale, Nest(parts, JString(s))), Join(parts, '.'), Some(params)) == Substitute(s, params)
  {
    SplitJoin(parts, '.');
    ResolveNest(parts, JString(s));
  }

  /** A string with one placeholder and brace-free text after it: the
      placeholder becomes the parameter's rendering, e.g. "{count} items"
      with `count` = 3 gives "3 items". */
  lemma FillOnePlaceholder(name: string, rest: string, v: ParamValue)
    requires |name| >= 1 && forall i :: 0 <= i < |name| ==> IsWordChar(name[i])
    requires '{' !in rest
    ensures Substitute("{" + name + "}" + rest, map[name := v]) == Render(v) + rest
  {
    PlaceholderThen(name, rest, map[name := v]);
    SubstituteNoBrace(rest, map[name := v]);
  }

  /** `String(3)` is "3" and `String(-12)` is "-12". */
  lemma RenderNumbers()
    ensures Render(PNumber(3)) == "3"
    ensures Render(PNumber(-12)) == "-12"
  {
    assert NatToString(12) == NatToString(1) + [DigitChar(2)];
  }

  /** A locale whose file is missing or broken leaves the current locale and
      its translations in place; switching to the same locale twice is
      switching once. */
  lemma SetLocaleFallback(st: LocaleState, files: map<string, LocaleFile>, locale: string)
    ensures FileOf(locale) !in files ==> SetLocale(st, files, locale) == st
    ensures SetLocale(SetLocale(st, files, locale), files, locale) == SetLocale(st, files, locale)
  {
  }

  /** After a successful switch, `t` reads the new locale's tree. */
  lemma SetLocaleThenT(st: LocaleState, files: map<string, LocaleFile>, locale: string, key: string)
    requires FileOf(locale) in files && files[FileOf(locale)].Parsed?
    ensures T(SetLocale(st, files, locale), key, None)
            == T(LocaleState(locale, files[FileOf(locale)].json), key, None)
  {
  }

  /** The `k`-th listed name is the `k`-th `.json` file of the listing with
      its first `.json` removed. */
  lemma ListedNameAt(listing: seq<string>, k: nat)
    requires k < |AvailableLocales(Some(listing))|
    ensures var json := Keep(listing, (f: string) => EndsWith(f, ".json"));
            AvailableLocales(Some(listing))[k] == ReplaceFirst(json[k], ".json", "")
  {
  }

  /** The listed names are those of the `.json` files; a name whose only
      `.json` is its suffix is exactly the file name without it, so switching
      to it finds that file. */
  lemma ListedLocaleHasFile(listing: seq<string>, k: nat)
    requires k < |AvailableLocales(Some(listing))|
    ensures var json := Keep(listing, (f: string) => EndsWith(f, ".json"));
            var f := json[k];
            f in listing && EndsWith(f, ".json")
            && (IndexOf(f, ".json") == Some(|f| - 5) ==> FileOf(AvailableLocales(Some(listing))[k]) == f)
  {
    var json := Keep(listing, (f: string) => EndsWith(f, ".json"));
    assert json[k] in json;
    ListedNameAt(listing, k);
    if IndexOf(json[k], ".json") == Some(|json[k]| - 5) {
      ReplaceSuffixOccurrence(json[k], ".json");
    }
  }
}

=== FILE: regex.dfy ===
/** The pattern engine as the filter engine uses it: an abstract compiler for
    pattern-mode rules, a concrete literal matcher for literal-mode rules, the
    replacement-string expansion of `String.prototype.replace`, and
    `escapeRegex`. */
module Regex {
  import opened Wrappers
  import opened Strings

  // ---------------------------------------------------------------------
  // matches and engines
  // ---------------------------------------------------------------------

  /** One match: the half-open span `[start, end)` of the subject and the
      capture groups, `None` for a group that did not participate. */
  datatype Hit = Hit(start: nat, end: nat, captures: seq<Option<string>>)

  /** A pattern compiled with the `g` and `i` flags: all its matches in a
      subject, left to right, as `String.prototype.match` collects them. */
  datatype Matcher = Matcher(hits: string -> seq<Hit>)

  /** The JavaScript RegExp engine, abstracted: `compile` fails (`None`) where
      `new RegExp(p, 'gi')` throws, and `canon` is the character
      canonicalisation the `i` flag compares under. */
  datatype Engine = Engine(compile: string -> Option<Matcher>, canon: char -> char)

  /** The hits lie inside a subject of length `n`, in order, without overlap. */
  predicate WellFormed(hs: seq<Hit>, n: nat) {
    && (forall k :: 0 <= k < |hs| ==> hs[k].start <= hs[k].end <= n)
    && (forall i, j :: 0 <= i < j < |hs| ==> hs[i].end <= hs[j].start)
  }

  /** Prepending a match that ends before the others keeps a list well formed. */
  lemma WellFormedCons(h: Hit, hs: seq<Hit>, n: nat)
    requires WellFormed(hs, n)
    requires h.start <= h.end <= n
    requires forall k :: 0 <= k < |hs| ==> h.end <= hs[k].start
    ensures WellFormed([h] + hs, n)
  {
    var r := [h] + hs;
    forall i, j | 0 <= i < j < |r| ensures r[i].end <= r[j].start {
      if i > 0 {
        assert r[i] == hs[i - 1] && r[j] == hs[j - 1];
      } else {
        assert r[j] == hs[j - 1];
      }
    }
  }

  /** The matches after the first are well formed and start after it ends. */
  lemma WellFormedTail(hs: seq<Hit>, n: nat)
    requires WellFormed(hs, n) && |hs| > 0
    ensures WellFormed(hs[1..], n)
    ensures forall k :: 0 <= k < |hs[1..]| ==> hs[0].end <= hs[1..][k].start
  {
    var t := hs[1..];
    forall i, j | 0 <= i < j < |t| ensures t[i].end <= t[j].start {
      assert t[i] == hs[i + 1] && t[j] == hs[j + 1];
    }
    forall k | 0 <= k < |t| ensures hs[0].end <= t[k].start {
      assert t[k] == hs[k + 1];
    }
  }

  /** What the model assumes of the engine: every compiled pattern reports
      well-formed matches on every subject. */
  ghost predicate ValidEngine(e: Engine) {
    forall p, s :: e.compile(p).Some? ==> WellFormed(e.compile(p).value.hits(s), |s|)
  }

  // ---------------------------------------------------------------------
  // replacement patterns (GetSubstitution)
  // ---------------------------------------------------------------------

  /** The text of a capture group; an unmatched group contributes nothing. */
  function CaptureText(c: Option<string>): string {
    c.GetOr("")
  }

  /** The value of a decimal digit character. */
  function DigitValue(c: char): nat
    requires IsDigit(c)
  {
    c as int - '0' as int
  }

  /** Expands the replacement string `rep` for the match `h` of `text`:
      `$$` is a dollar sign, `$&` the match, `` $` `` the text before it,
      `$'` the text after it, `$n`/`$nn` a capture group when that group
      exists (two digits are preferred when they name a group); every other
      `$` is kept literally. Named groups (`$<name>`) are not modelled, so
      `$<` is kept literally, as it is for a pattern without named groups. */
  function Substitution(rep: string, text: string, h: Hit): string
    requires h.start <= h.end <= |text|
    decreases |rep|
  {
    if |rep| == 0 then ""
    else if rep[0] != '$' || |rep| == 1 then [rep[0]] + Substitution(rep[1..], text, h)
    else if rep[1] == '$' then "$" + Substitution(rep[2..], text, h)
    else if rep[1] == '&' then text[h.start..h.end] + Substitution(rep[2..], text, h)
    else if rep[1] == '`' then text[..h.start] + Substitution(rep[2..], text, h)
    else if rep[1] == '\'' then text[h.end..] + Substitution(rep[2..], text, h)
    else if IsDigit(rep[1]) then
      var m := |h.captures|;
      var one := DigitValue(rep[1]);
      var two := if |rep| >= 3 && IsDigit(rep[2]) then 10 * one + DigitValue(rep[2]) else 0;
      var (index, width) := if |rep| >= 3 && IsDigit(rep[2]) && two <= m then (two, 2) else (one, 1);
      if index == 0 || index > m then "$" + Substitution(rep[1..], text, h)
      else CaptureText(h.captures[index - 1]) + Substitution(rep[1 + width..], text, h)
    else "$" + Substitution(rep[1..], text, h)
  }

  /** A replacement without `$` is inserted verbatim. */
  lemma {:induction false} SubstitutionPlain(rep: string, text: string, h: Hit)
    requires h.start <= h.end <= |text|
    requires '$' !in rep
    ensures Substitution(rep, text, h) == rep
    decreases |rep|
  {
    if |rep| > 0 {
      assert rep[0] in rep;
      assert forall c :: c in rep[1..] ==> c in rep;
      SubstitutionPlain(rep[1..], text, h);
    }
  }

  /** `text.replace(regex, rep)` for a global regex with matches `hs`: the text
      between matches is kept and each match is replaced by its expansion. */
  function ReplaceFrom(text: string, hs: seq<Hit>, rep: string, cursor: nat): string
    requires WellFormed(hs, |text|)
    requires cursor <= |text|
    requires forall k :: 0 <= k < |hs| ==> cursor <= hs[k].start
    decreases |hs|
  {
    if |hs| == 0 then text[cursor..]
    else
      text[cursor..hs[0].start] + Substitution(rep, text, hs[0])
      + ReplaceFrom(text, hs[1..], rep, hs[0].end)
  }

  /** Replaces every match. */
  function ReplaceAll(text: string, hs: seq<Hit>, rep: string): string
    requires WellFormed(hs, |text|)
  {
    ReplaceFrom(text, hs, rep, 0)
  }

  /** With no matches nothing is replaced. */
  lemma ReplaceNothing(text: string, rep: string)
    ensures ReplaceAll(text, [], rep) == text
  {
  }

  /** With a `$`-free replacement and matches of a common length `len`, each
      match changes the length by `|rep| - len`. */
  lemma {:induction false} ReplaceFromLength(text: string, hs: seq<Hit>, rep: string, cursor: nat, len: nat)
    requires WellFormed(hs, |text|)
    requires cursor <= |text|
    requires forall k :: 0 <= k < |hs| ==> cursor <= hs[k].start
    requires forall k :: 0 <= k < |hs| ==> hs[k].end == hs[k].start + len
    requires '$' !in rep
    ensures |ReplaceFrom(text, hs, rep, cursor)| == |text| - cursor + |hs| * (|rep| - len)
    decreases |hs|
  {
    if |hs| > 0 {
      var h := hs[0];
      SubstitutionPlain(rep, text, h);
      WellFormedTail(hs, |text|);
      var tail := ReplaceFrom(text, hs[1..], rep, h.end);
      ReplaceFromLength(text, hs[1..], rep, h.end, len);
      assert ReplaceFrom(text, hs, rep, cursor) == text[cursor..h.start] + rep + tail;
      MulSucc(|hs| - 1, |rep| - len);
    }
  }

  lemma MulSucc(n: nat, d: int)
    ensures (n + 1) * d == n * d + d
  {
  }

  // ---------------------------------------------------------------------
  // escapeRegex and the literal sources it produces
  // ---------------------------------------------------------------------

  /** The characters `escapeRegex` protects with a backslash:
      `. * + ? ^ $ { } ( ) | [ ] \`, the syntax characters of JavaScript
      patterns. */
  predicate IsMeta(c: char) {
    c in ".*+?^${}()|[]\\"
  }

  /** Number of metacharacters in `s`. */
  function MetaCount(s: string): nat
    decreases |s|
  {
    if |s| == 0 then 0 else (if IsMeta(s[0]) then 1 else 0) + MetaCount(s[1..])
  }

  /** The denotation of a pattern made only of single-character atoms: plain
      characters, which match themselves, and backslash-escaped
      metacharacters, which match the metacharacter. `None` when the source
      uses any other pattern syntax. */
  function LiteralSource(src: string): (r: Option<string>)
    ensures r.Some? ==> |r.value| <= |src|
    decreases |src|
  {
    if |src| == 0 then Some("")
    else if src[0] == '\\' then
      if |src| >= 2 && IsMeta(src[1]) then
        match LiteralSource(src[2..])
        case Some(rest) => Some([src[1]] + rest)
        case None => None
      else None
    else if IsMeta(src[0]) then None
    else
      match LiteralSource(src[1..])
      case Some(rest) => Some([src[0]] + rest)
      case None => None
  }

  /** `escapeRegex(s)`: a backslash before every metacharacter. The result is
      a literal source that denotes exactly `s`. */
  function EscapeRegex(s: string): (r: string)
    ensures |r| == |s| + MetaCount(s)
    ensures LiteralSource(r) == Some(s)
    decreases |s|
  {
    if |s| == 0 then ""
    else if IsMeta(s[0]) then
      var rest := EscapeRegex(s[1..]);
      var r := ['\\', s[0]] + rest;
      assert r[2..] == rest;
      assert [s[0]] + s[1..] == s;
      r
    else
      var rest := EscapeRegex(s[1..]);
      var r := [s[0]] + rest;
      assert r[1..] == rest;
      assert [s[0]] + s[1..] == s;
      r
  }

  /** Escaping is the only way to write a literal source: escaping what a
      literal source denotes gives the source back. */
  lemma {:induction false} EscapeLiteralSource(src: string)
    requires LiteralSource(src).Some?
    ensures EscapeRegex(LiteralSource(src).value) == src
    decreases |src|
  {
    if |src| > 0 {
      var lit := LiteralSource(src).value;
      if src[0] == '\\' {
        EscapeLiteralSource(src[2..]);
        assert lit[1..] == LiteralSource(src[2..]).value;
        assert src == ['\\', src[1]] + src[2..];
      } else {
        EscapeLiteralSource(src[1..]);
        assert lit[1..] == LiteralSource(src[1..]).value;
        assert src == [src[0]] + src[1..];
      }
    }
  }

  /** Every metacharacter of `r` other than a backslash directly follows a
      backslash. */
  predicate MetaEscaped(r: string) {
    forall i :: 0 <= i < |r| && IsMeta(r[i]) && r[i] != '\\' ==> i > 0 && r[i - 1] == '\\'
  }

  /** No metacharacter of the input survives unescaped. */
  lemma {:induction false} EscapeProtectsMeta(s: string)
    ensures MetaEscaped(EscapeRegex(s))
    decreases |s|
  {
    if |s| > 0 {
      var r := EscapeRegex(s);
      var tail := EscapeRegex(s[1..]);
      EscapeProtectsMeta(s[1..]);
      var w := if IsMeta(s[0]) then 2 else 1;
      assert r[w..] == tail;
      forall i | 0 <= i < |r| && IsMeta(r[i]) && r[i] != '\\'
        ensures i > 0 && r[i - 1] == '\\'
      {
        assert r[0] == (if IsMeta(s[0]) then '\\' else s[0]);
        assert IsMeta(s[0]) ==> r[1] == s[0];
        if i >= w {
          assert r[i] == tail[i - w];
          if i - w > 0 {
            assert r[i - 1] == tail[i - w - 1];
          }
        }
      }
    }
  }

  // ---------------------------------------------------------------------
  // literal matching
  // ---------------------------------------------------------------------

  /** `pat` occurs at `i` in `text` under the canonicalisation `canon`. */
  predicate MatchesAt(canon: char -> char, pat: string, text: string, i: nat) {
    i + |pat| <= |text| && forall j :: 0 <= j < |pat| ==> canon(text[i + j]) == canon(pat[j])
  }

  /** Position `i` is the start of `h` or lies strictly inside it. */
  predicate Covers(h: Hit, i: nat) {
    h.start == i || h.start < i < h.end
  }

  /** Position `i` is a match start in `hs`, or lies strictly inside a match. */
  predicate Covered(hs: seq<Hit>, i: nat) {
    exists k :: 0 <= k < |hs| && Covers(hs[k], i)
  }

  /** The matches a global search for the literal `pat` finds from position
      `from` on: scan left to right, take an occurrence, resume after it (one
      position further for the empty pattern, which matches everywhere). */
  function LiteralHitsFrom(canon: char -> char, pat: string, text: string, from: nat): (r: seq<Hit>)
    requires from <= |text| + 1
    ensures WellFormed(r, |text|)
    ensures forall k :: 0 <= k < |r| ==>
              && from <= r[k].start
              && r[k].end == r[k].start + |pat|
              && r[k].captures == []
              && MatchesAt(canon, pat, text, r[k].start)
    decreases |text| + 1 - from
  {
    if from + |pat| > |text| then []
    else
      var next := if |pat| == 0 then from + 1 else from + |pat|;
      if MatchesAt(canon, pat, text, from) then
        var h := Hit(from, from + |pat|, []);
        var rest := LiteralHitsFrom(canon, pat, text, next);
        WellFormedCons(h, rest, |text|);
        [h] + rest
      else
        LiteralHitsFrom(canon, pat, text, from + 1)
  }

  /** Where the pattern occurs, the scan takes that occurrence first, and the
      matches found after it follow at position `k + 1`. */
  lemma LiteralHitsTake(canon: char -> char, pat: string, text: string, from: nat, k: nat)
    requires MatchesAt(canon, pat, text, from)
    ensures var r := LiteralHitsFrom(canon, pat, text, from);
            var next := if |pat| == 0 then from + 1 else from + |pat|;
            var rest := LiteralHitsFrom(canon, pat, text, next);
            && |r| == |rest| + 1
            && r[0] == Hit(from, from + |pat|, [])
            && (k < |rest| ==> r[k + 1] == rest[k])
  {
  }

  /** Where the pattern does not occur but still fits, the scan moves on by one. */
  lemma LiteralHitsSkip(canon: char -> char, pat: string, text: string, from: nat)
    requires from + |pat| <= |text| && !MatchesAt(canon, pat, text, from)
    ensures LiteralHitsFrom(canon, pat, text, from) == LiteralHitsFrom(canon, pat, text, from + 1)
  {
  }

  /** The match of the scan from `from` that covers the occurrence at `i`. */
  lemma {:induction false} LiteralHitCovering(canon: char -> char, pat: string, text: string, from: nat, i: nat)
    returns (k: nat)
    requires from <= i && MatchesAt(canon, pat, text, i)
    ensures var r := LiteralHitsFrom(canon, pat, text, from);
            k < |r| && Covers(r[k], i)
    decreases |text| + 1 - from
  {
    if MatchesAt(canon, pat, text, from) {
      var next := if |pat| == 0 then from + 1 else from + |pat|;
      if i == from || i < from + |pat| {
        LiteralHitsTake(canon, pat, text, from, 0);
        k := 0;
        assert Covers(LiteralHitsFrom(canon, pat, text, from)[k], i);
      } else {
        var k' := LiteralHitCovering(canon, pat, text, next, i);
        LiteralHitsTake(canon, pat, text, from, k');
        k := k' + 1;
        assert Covers(LiteralHitsFrom(canon, pat, text, from)[k], i);
      }
    } else {
      LiteralHitsSkip(canon, pat, text, from);
      k := LiteralHitCovering(canon, pat, text, from + 1, i);
      assert Covers(LiteralHitsFrom(canon, pat, text, from)[k], i);
    }
  }

  /** The scan misses no occurrence: every occurrence at or after `from`
      starts a match or lies inside one (the leftmost, non-overlapping
      reading of "all occurrences"). */
  lemma LiteralHitsComplete(canon: char -> char, pat: string, text: string, from: nat, i: nat)
    requires from <= |text| + 1
    requires from <= i && MatchesAt(canon, pat, text, i)
    ensures Covered(LiteralHitsFrom(canon, pat, text, from), i)
  {
    var k := LiteralHitCovering(canon, pat, text, from, i);
  }

  /** All matches of the literal `pat` in `text`. */
  function LiteralHits(canon: char -> char, pat: string, text: string): seq<Hit> {
    LiteralHitsFrom(canon, pat, text, 0)
  }

  /** A literal pattern has at most one match per position of the subject
      (plus one for the empty pattern at the end). */
  lemma {:induction false} LiteralHitsBound(canon: char -> char, pat: string, text: string, from: nat)
    requires from <= |text| + 1
    ensures |LiteralHitsFrom(canon, pat, text, from)| <= |text| + 1 - from
    decreases |text| + 1 - from
  {
    if from + |pat| <= |text| {
      var next := if |pat| == 0 then from + 1 else from + |pat|;
      if MatchesAt(canon, pat, text, from) {
        LiteralHitsBound(canon, pat, text, next);
      } else {
        LiteralHitsBound(canon, pat, text, from + 1);
      }
    }
  }

  /** The compilation `new RegExp(src, 'gi')` performs on a source made only
      of single-character atoms: the case-insensitive scan for the text the
      source denotes. Other sources are not literal and get no matcher here. */
  function CompileLiteral(canon: char -> char, src: string): (m: Option<Matcher>)
    ensures LiteralSource(src).Some? <==> m.Some?
    ensures m.Some? ==> forall t :: m.value.hits(t) == LiteralHits(canon, LiteralSource(src).value, t)
  {
    match LiteralSource(src)
    case Some(lit) => Some(Matcher(text => LiteralHits(canon, lit, text)))
    case None => None
  }

  /** What a compiled literal finds in a subject `t`: ordered, non-overlapping
      matches inside `t`, each an occurrence of the denoted text, with every
      occurrence starting a match or lying inside one. */
  lemma CompiledLiteralMatches(canon: char -> char, src: string, t: string)
    requires CompileLiteral(canon, src).Some?
    ensures var lit := LiteralSource(src).value;
            var hs := CompileLiteral(canon, src).value.hits(t);
            && WellFormed(hs, |t|)
            && (forall k :: 0 <= k < |hs| ==> hs[k].end == hs[k].start + |lit| && MatchesAt(canon, lit, t, hs[k].start))
            && (forall i :: MatchesAt(canon, lit, t, i) ==> Covered(hs, i))
  {
    var lit := LiteralSource(src).value;
    forall i | MatchesAt(canon, lit, t, i) ensures Covered(LiteralHits(canon, lit, t), i) {
      LiteralHitsComplete(canon, lit, t, 0, i);
    }
  }

  /** `new RegExp(escapeRegex(p), 'gi')` always compiles, to the
      case-insensitive scan for `p` itself. */
  lemma EscapedCompiles(canon: char -> char, p: string, t: string)
    ensures CompileLiteral(canon, EscapeRegex(p)).Some?
    ensures CompileLiteral(canon, EscapeRegex(p)).value.hits(t) == LiteralHits(canon, p, t)
  {
  }
}

=== FILE: rule_store.dfy ===
/** The persisted state of `FilterManager` and its operations: rule and folder
    create/update/delete, the category and folder queries, the settings
    merge, first-run seeding, reset and import. Every operation is a pure
    function from the old store contents to the new ones; the id generator
    is a parameter. */
module RuleStore {
  import opened Wrappers
  import opened Seqs
  import opened Strings
  import opened Rules

  /** The three keys of the persisted store. */
  datatype Store = Store(filters: seq<FilterRule>, customFolders: seq<CustomFolder>, settings: AppSettings)

  // ---------------------------------------------------------------------
  // identities
  // ---------------------------------------------------------------------

  /** Some rule of `rules` carries `id`. */
  predicate HasId(rules: seq<FilterRule>, id: string) {
    exists k :: 0 <= k < |rules| && rules[k].id == id
  }

  /** No two rules share an id. */
  predicate UniqueIds(rules: seq<FilterRule>) {
    forall i, j :: 0 <= i < j < |rules| ==> rules[i].id != rules[j].id
  }

  /** Some folder of `folders` carries `id`. */
  predicate HasFolder(folders: seq<CustomFolder>, id: string) {
    exists k :: 0 <= k < |folders| && folders[k].id == id
  }

  /** Every rule that names a folder names an existing one. */
  predicate NoOrphans(s: Store) {
    forall r :: r in s.filters && Truthy(r.folder) ==> HasFolder(s.customFolders, r.folder.value)
  }

  // ---------------------------------------------------------------------
  // rules
  // ---------------------------------------------------------------------

  /** `addFilter(t)` with `newId` as the generated id: the new rule is appended. */
  function AddFilter(rules: seq<FilterRule>, t: RuleTemplate, newId: string): (r: seq<FilterRule>)
    ensures |r| == |rules| + 1
    ensures r[..|rules|] == rules
    ensures r[|rules|].id == newId && Template(r[|rules|]) == t
  {
    rules + [WithId(t, newId)]
  }

  /** `updateFilter(id, p)`: the first rule with that id is merged with `p`,
      every other rule is left alone, and an unknown id changes nothing. */
  function UpdateFilter(rules: seq<FilterRule>, id: string, p: RulePatch): (r: seq<FilterRule>)
    ensures |r| == |rules|
    ensures forall k :: 0 <= k < |rules| ==>
              r[k] == if FirstWhere(rules, (x: FilterRule) => x.id == id, k) then PatchRule(rules[k], p) else rules[k]
    ensures forall k :: 0 <= k < |rules| ==> r[k].id == rules[k].id
    ensures !HasId(rules, id) ==> r == rules
  {
    UpdateFirst(rules, (x: FilterRule) => x.id == id, (x: FilterRule) => PatchRule(x, p))
  }

  /** `deleteFilter(id)`: every rule with that id goes, the others stay in order. */
  function DeleteFilter(rules: seq<FilterRule>, id: string): (r: seq<FilterRule>)
    ensures forall x :: x in r <==> x in rules && x.id != id
    ensures !HasId(r, id)
    ensures !HasId(rules, id) ==> r == rules
  {
    var keep := (x: FilterRule) => x.id != id;
    var r := Keep(rules, keep);
    assert !HasId(r, id) by {
      forall k | 0 <= k < |r| ensures r[k].id != id { assert r[k] in r; }
    }
    assert !HasId(rules, id) ==> r == rules by {
      if !HasId(rules, id) { KeepAll(rules, keep); }
    }
    r
  }

  /** `moveFilterToFolder(filterId, folderId)`: only the folder of the first
      rule with that id changes; `None` takes it out of any folder. */
  function MoveFilterToFolder(rules: seq<FilterRule>, filterId: string, folderId: Option<string>): (r: seq<FilterRule>)
    ensures |r| == |rules|
    ensures forall k :: 0 <= k < |rules| ==>
              r[k] == if FirstWhere(rules, (x: FilterRule) => x.id == filterId, k) then rules[k].(folder := folderId) else rules[k]
  {
    UpdateFilter(rules, filterId, MovePatch(folderId))
  }

  // ---------------------------------------------------------------------
  // folders
  // ---------------------------------------------------------------------

  /** `addCustomFolder(t)` with `newId` as the generated id: the new folder is
      appended and always starts expanded. */
  function AddCustomFolder(folders: seq<CustomFolder>, t: FolderTemplate, newId: string): (r: (seq<CustomFolder>, CustomFolder))
    ensures r.0 == folders + [r.1]
    ensures r.1.id == newId && r.1.name == t.name && r.1.icon == t.icon
    ensures r.1.expanded == Some(true)
  {
    var f := CustomFolder(newId, t.name, t.icon, Some(true));
    (folders + [f], f)
  }

  /** `updateCustomFolder(id, p)`: the first folder with that id is merged with
      `p`; an unknown id changes nothing. */
  function UpdateCustomFolder(folders: seq<CustomFolder>, id: string, p: FolderPatch): (r: seq<CustomFolder>)
    ensures |r| == |folders|
    ensures forall k :: 0 <= k < |folders| ==>
              r[k] == if FirstWhere(folders, (x: CustomFolder) => x.id == id, k) then PatchFolder(folders[k], p) else folders[k]
    ensures !HasFolder(folders, id) ==> r == folders
  {
    UpdateFirst(folders, (x: CustomFolder) => x.id == id, (x: CustomFolder) => PatchFolder(x, p))
  }

  /** The custom rules: those without a truthy built-in key, in order. The
      settings window selects them for export and for deleting everything
      custom. */
  function UserRules(rules: seq<FilterRule>): (r: seq<FilterRule>)
    ensures forall x :: x in r <==> x in rules && !IsBuiltin(x)
  {
    Keep(rules, (f: FilterRule) => !IsBuiltin(f))
  }

  /** `deleteCustomFolder(id)`: the folder goes and so does every rule filed in
      it, whether or not the folder exists; everything else stays in order. */
  function DeleteCustomFolder(s: Store, id: string): (r: Store)
    ensures r.settings == s.settings
    ensures forall x :: x in r.filters <==> x in s.filters && !InFolder(x, id)
    ensures forall f :: f in r.customFolders <==> f in s.customFolders && f.id != id
    ensures GetFiltersByFolder(r.filters, id) == []
  {
    var filters := Keep(s.filters, (x: FilterRule) => !InFolder(x, id));
    var folders := Keep(s.customFolders, (f: CustomFolder) => f.id != id);
    assert forall k :: 0 <= k < |filters| ==> !InFolder(filters[k], id) by {
      forall k | 0 <= k < |filters| ensures !InFolder(filters[k], id) {
        assert filters[k] in filters;
      }
    }
    KeepNone(filters, (x: FilterRule) => InFolder(x, id));
    Store(filters, folders, s.settings)
  }

  /** Deleting a folder keeps the order of what stays: it acts on each part of
      the rule list and of the folder list on its own. */
  lemma DeleteCustomFolderSplits(s: Store, id: string, a: seq<FilterRule>, b: seq<FilterRule>,
                                 fa: seq<CustomFolder>, fb: seq<CustomFolder>)
    requires s.filters == a + b && s.customFolders == fa + fb
    ensures var r := DeleteCustomFolder(s, id);
            var ra := DeleteCustomFolder(s.(filters := a, customFolders := fa), id);
            var rb := DeleteCustomFolder(s.(filters := b, customFolders := fb), id);
            r.filters == ra.filters + rb.filters && r.customFolders == ra.customFolders + rb.customFolders
  {
    KeepAppend(a, b, (x: FilterRule) => !InFolder(x, id));
    KeepAppend(fa, fb, (f: CustomFolder) => f.id != id);
  }

  /** Rules outside the folder and folders with other ids are kept as they
      were: with nothing filed in it, the rule list is unchanged, and an
      unknown id leaves the folder list unchanged. */
  lemma DeleteCustomFolderUntouched(s: Store, id: string)
    ensures (forall k :: 0 <= k < |s.filters| ==> !InFolder(s.filters[k], id)) ==>
              DeleteCustomFolder(s, id).filters == s.filters
    ensures !HasFolder(s.customFolders, id) ==> DeleteCustomFolder(s, id).customFolders == s.customFolders
  {
    if forall k :: 0 <= k < |s.filters| ==> !InFolder(s.filters[k], id) {
      KeepAll(s.filters, (x: FilterRule) => !InFolder(x, id));
    }
    if !HasFolder(s.customFolders, id) {
      KeepAll(s.customFolders, (f: CustomFolder) => f.id != id);
    }
  }

  /** With distinct folder ids, deleting a folder removes just that folder
      from the list. */
  lemma DeleteCustomFolderRemovesOne(s: Store, fa: seq<CustomFolder>, f: CustomFolder, fb: seq<CustomFolder>)
    requires s.customFolders == fa + [f] + fb
    requires !HasFolder(fa, f.id) && !HasFolder(fb, f.id)
    ensures DeleteCustomFolder(s, f.id).customFolders == fa + fb
  {
    var keep := (g: CustomFolder) => g.id != f.id;
    assert forall i :: 0 <= i < |fa| ==> keep(fa[i]);
    assert forall i :: 0 <= i < |fb| ==> keep(fb[i]);
    KeepDropOne(fa, f, fb, keep);
  }

  /** Adding a folder under a fresh, non-empty id and then deleting that id
      restores the store: no rule can be filed in a folder that did not
      exist. */
  lemma AddThenDeleteFolder(s: Store, t: FolderTemplate, newId: string)
    requires NoOrphans(s) && newId != "" && !HasFolder(s.customFolders, newId)
    ensures var added := s.(customFolders := AddCustomFolder(s.customFolders, t, newId).0);
            DeleteCustomFolder(added, newId) == s
  {
    var (folders, f) := AddCustomFolder(s.customFolders, t, newId);
    var added := s.(customFolders := folders);
    assert folders == s.customFolders + [f] + [];
    DeleteCustomFolderRemovesOne(added, s.customFolders, f, []);
    forall k | 0 <= k < |s.filters| ensures !InFolder(s.filters[k], newId) {
      assert s.filters[k] in s.filters;
    }
    DeleteCustomFolderUntouched(added, newId);
  }

  // ---------------------------------------------------------------------
  // queries
  // ---------------------------------------------------------------------

  /** `getFiltersByCategory(c)`: the rules of category `c` that are not in a folder. */
  function GetFiltersByCategory(rules: seq<FilterRule>, c: string): (r: seq<FilterRule>)
    ensures forall x :: x in r <==> x in rules && x.category == c && Unfoldered(x)
  {
    Keep(rules, (x: FilterRule) => x.category == c && Unfoldered(x))
  }

  /** `getFiltersByFolder(id)`: the rules filed in folder `id`. */
  function GetFiltersByFolder(rules: seq<FilterRule>, id: string): (r: seq<FilterRule>)
    ensures forall x :: x in r <==> x in rules && InFolder(x, id)
  {
    Keep(rules, (x: FilterRule) => InFolder(x, id))
  }

  /** `getCategories()`: the distinct categories of the rules outside folders,
      sorted. */
  function GetCategories(rules: seq<FilterRule>): (r: seq<string>)
    ensures StrictlySorted(r)
    ensures forall c :: c in r <==> exists x :: x in rules && Unfoldered(x) && x.category == c
    decreases |rules|
  {
    if |rules| == 0 then []
    else
      var rest := GetCategories(rules[1..]);
      assert forall x :: x in rules[1..] ==> x in rules;
      assert forall x :: x in rules ==> x == rules[0] || x in rules[1..];
      if Unfoldered(rules[0]) then InsertSorted(rest, rules[0].category) else rest
  }

  /** A category is listed exactly when some rule outside folders shows under it. */
  lemma CategoriesMatchQueries(rules: seq<FilterRule>, c: string)
    ensures c in GetCategories(rules) <==> GetFiltersByCategory(rules, c) != []
  {
    var q := GetFiltersByCategory(rules, c);
    if c in GetCategories(rules) {
      var x :| x in rules && Unfoldered(x) && x.category == c;
      assert x in q;
    }
    if q != [] {
      assert q[0] in q;
    }
  }

  // ---------------------------------------------------------------------
  // settings
  // ---------------------------------------------------------------------

  /** `updateSettings(p)`: the settings record is merged with `p`; rules and
      folders are untouched. */
  function UpdateSettings(s: Store, p: SettingsPatch): (r: Store)
    ensures r.filters == s.filters && r.customFolders == s.customFolders
    ensures p.language.Present? ==> r.settings.language == p.language.value
    ensures p.language.Absent? ==> r.settings.language == s.settings.language
    ensures p.shortcutPaste.Present? ==> r.settings.shortcutPaste == p.shortcutPaste.value
    ensures p.shortcutPaste.Absent? ==> r.settings.shortcutPaste == s.settings.shortcutPaste
    ensures p.theme.Present? ==> r.settings.theme == p.theme.value
    ensures p.theme.Absent? ==> r.settings.theme == s.settings.theme
    ensures p.autoStart.Present? ==> r.settings.autoStart == p.autoStart.value
    ensures p.autoStart.Absent? ==> r.settings.autoStart == s.settings.autoStart
    ensures p.notifications.Present? ==> r.settings.notifications == p.notifications.value
    ensures p.notifications.Absent? ==> r.settings.notifications == s.settings.notifications
  {
    s.(settings := PatchSettings(s.settings, p))
  }

  /** Two settings updates in turn are one update with the merged patch, and
      repeating an update changes nothing more. */
  lemma UpdateSettingsCompose(s: Store, p: SettingsPatch, q: SettingsPatch)
    ensures UpdateSettings(UpdateSettings(s, p), q) == UpdateSettings(s, MergeSettingsPatches(p, q))
    ensures UpdateSettings(UpdateSettings(s, p), p) == UpdateSettings(s, p)
  {
  }

  // ---------------------------------------------------------------------
  // seeding, reset and import
  // ---------------------------------------------------------------------

  /** `getDefaultFilters()`: the bundled rule set, each entry given the id
      `idAt(k)` for its position `k`. `None` is a bundle that could not be
      read or parsed, which yields no rules. */
  function DefaultFilters(bundle: Option<seq<RuleTemplate>>, idAt: nat -> string): (r: seq<FilterRule>)
    ensures bundle.None? ==> r == []
    ensures bundle.Some? ==> |r| == |bundle.value|
    ensures bundle.Some? ==> forall k :: 0 <= k < |r| ==> r[k].id == idAt(k) && Template(r[k]) == bundle.value[k]
  {
    match bundle
    case None => []
    case Some(b) => seq(|b|, k requires 0 <= k < |b| => WithId(b[k], idAt(k)))
  }

  /** What the persistent store holds on disk; `None` is a key never written. */
  datatype Persisted = Persisted(
    filters: Option<seq<FilterRule>>,
    customFolders: Option<seq<CustomFolder>>,
    settings: Option<AppSettings>)

  /** The constructor: each absent key takes its default, and an empty rule
      list is replaced by the bundled defaults. */
  function Construct(disk: Persisted, bundle: Option<seq<RuleTemplate>>, idAt: nat -> string): (s: Store)
    ensures s.customFolders == disk.customFolders.GetOr([])
    ensures s.settings == disk.settings.GetOr(DefaultSettings)
    ensures disk.filters.GetOr([]) != [] ==> s.filters == disk.filters.value
    ensures disk.filters.GetOr([]) == [] ==> s.filters == DefaultFilters(bundle, idAt)
  {
    var stored := disk.filters.GetOr([]);
    Store(if |stored| == 0 then DefaultFilters(bundle, idAt) else stored,
          disk.customFolders.GetOr([]), disk.settings.GetOr(DefaultSettings))
  }

  /** The store as it is written back. */
  function Persist(s: Store): Persisted {
    Persisted(Some(s.filters), Some(s.customFolders), Some(s.settings))
  }

  /** Reopening a store that was constructed and written back yields it again. */
  lemma ReopenIsStable(disk: Persisted, bundle: Option<seq<RuleTemplate>>, idAt: nat -> string)
    ensures var s := Construct(disk, bundle, idAt);
            Construct(Persist(s), bundle, idAt) == s
  {
  }

  /** A fresh store holds the bundled rules, no folders and the default settings. */
  lemma FreshStore(bundle: Option<seq<RuleTemplate>>, idAt: nat -> string)
    ensures Construct(Persisted(None, None, None), bundle, idAt)
            == Store(DefaultFilters(bundle, idAt), [], DefaultSettings)
  {
  }

  /** `resetToDefaults()`: the rules are replaced by freshly seeded defaults;
      folders and settings are untouched. */
  function ResetToDefaults(s: Store, bundle: Option<seq<RuleTemplate>>, idAt: nat -> string): (r: Store)
    ensures r.customFolders == s.customFolders && r.settings == s.settings
    ensures bundle.Some? ==> |r.filters| == |bundle.value|
    ensures bundle.Some? ==> forall k :: 0 <= k < |r.filters| ==>
              r.filters[k].id == idAt(k) && Template(r.filters[k]) == bundle.value[k]
    ensures bundle.None? ==> r.filters == []
  {
    s.(filters := DefaultFilters(bundle, idAt))
  }

  /** `importFilters(fs)`: the rule list is replaced wholesale; folders and
      settings are untouched. */
  function ImportFilters(s: Store, fs: seq<FilterRule>): (r: Store)
    ensures r.filters == fs
    ensures r.customFolders == s.customFolders && r.settings == s.settings
  {
    s.(filters := fs)
  }

  /** `exportFilters()`. */
  function ExportFilters(s: Store): seq<FilterRule> {
    s.filters
  }

  /** Importing what was exported leaves the store as it was. */
  lemma ExportImport(s: Store)
    ensures ImportFilters(s, ExportFilters(s)) == s
  {
  }

  // ---------------------------------------------------------------------
  // properties relating the operations
  // ---------------------------------------------------------------------

  /** With an injective id generator the seeded rules have distinct ids. */
  lemma DefaultFiltersUnique(bundle: Option<seq<RuleTemplate>>, idAt: nat -> string)
    requires forall i, j :: 0 <= i < j ==> idAt(i) != idAt(j)
    ensures UniqueIds(DefaultFilters(bundle, idAt))
  {
  }

  /** Adding a rule under a fresh id keeps ids distinct. */
  lemma AddFilterUnique(rules: seq<FilterRule>, t: RuleTemplate, newId: string)
    requires UniqueIds(rules) && !HasId(rules, newId)
    ensures UniqueIds(AddFilter(rules, t, newId))
  {
    var r := AddFilter(rules, t, newId);
    forall i, j | 0 <= i < j < |r| ensures r[i].id != r[j].id {
      if j == |rules| {
        assert r[i] == rules[i];
      } else {
        assert r[i] == rules[i] && r[j] == rules[j];
      }
    }
  }

  /** Adding a rule under a fresh id and deleting that id restores the list. */
  lemma AddThenDelete(rules: seq<FilterRule>, t: RuleTemplate, newId: string)
    requires !HasId(rules, newId)
    ensures DeleteFilter(AddFilter(rules, t, newId), newId) == rules
  {
    var keep := (x: FilterRule) => x.id != newId;
    KeepAppend(rules, [WithId(t, newId)], keep);
    KeepAll(rules, keep);
    assert Keep([WithId(t, newId)], keep) == [];
  }

  /** Selection keeps ids distinct. */
  lemma {:induction false} KeepUnique(rules: seq<FilterRule>, p: FilterRule -> bool)
    requires UniqueIds(rules)
    ensures UniqueIds(Keep(rules, p))
    decreases |rules|
  {
    if |rules| > 0 {
      var rest := Keep(rules[1..], p);
      KeepUnique(rules[1..], p);
      if p(rules[0]) {
        var r := [rules[0]] + rest;
        forall i, j | 0 <= i < j < |r| ensures r[i].id != r[j].id {
          if i == 0 {
            assert r[j] in rest;
            var k :| 0 <= k < |rules[1..]| && rules[1..][k] == r[j];
            assert rules[k + 1] == r[j];
          } else {
            assert r[i] == rest[i - 1] && r[j] == rest[j - 1];
          }
        }
      }
    }
  }

  /** Deleting a rule whose id is carried once removes exactly that rule. */
  lemma DeleteFilterRemovesOne(a: seq<FilterRule>, x: FilterRule, b: seq<FilterRule>)
    requires !HasId(a, x.id) && !HasId(b, x.id)
    ensures DeleteFilter(a + [x] + b, x.id) == a + b
  {
    var keep := (y: FilterRule) => y.id != x.id;
    assert forall i :: 0 <= i < |a| ==> keep(a[i]);
    assert forall i :: 0 <= i < |b| ==> keep(b[i]);
    KeepDropOne(a, x, b, keep);
  }

  /** With distinct ids, an update by id touches exactly the rule with that id. */
  lemma UpdateUniqueAt(rules: seq<FilterRule>, id: string, p: RulePatch, k: nat)
    requires UniqueIds(rules) && k < |rules|
    ensures UpdateFilter(rules, id, p)[k] == if rules[k].id == id then PatchRule(rules[k], p) else rules[k]
  {
    if rules[k].id == id {
      assert FirstWhere(rules, (x: FilterRule) => x.id == id, k);
    }
  }

  /** Updates and deletions keep ids distinct. */
  lemma UpdateDeleteUnique(rules: seq<FilterRule>, id: string, p: RulePatch)
    requires UniqueIds(rules)
    ensures UniqueIds(UpdateFilter(rules, id, p))
    ensures UniqueIds(DeleteFilter(rules, id))
  {
    KeepUnique(rules, (x: FilterRule) => x.id != id);
  }

  /** Two updates of the same rule in turn are one update with the merged patch. */
  lemma UpdateFilterCompose(rules: seq<FilterRule>, id: string, p: RulePatch, q: RulePatch)
    ensures UpdateFilter(UpdateFilter(rules, id, p), id, q) == UpdateFilter(rules, id, MergeRulePatches(p, q))
  {
    var isId := (x: FilterRule) => x.id == id;
    var f := (x: FilterRule) => PatchRule(x, p);
    var g := (x: FilterRule) => PatchRule(x, q);
    UpdateFirstTwice(rules, isId, f, g);
    var a := UpdateFirst(rules, isId, (x: FilterRule) => g(f(x)));
    var b := UpdateFirst(rules, isId, (x: FilterRule) => PatchRule(x, MergeRulePatches(p, q)));
    forall k | 0 <= k < |rules| ensures a[k] == b[k] {
      PatchRuleCompose(rules[k], p, q);
    }
  }

  /** A moved rule shows under its new folder, or under its category when it
      is taken out of folders. */
  lemma MoveShowsInTarget(rules: seq<FilterRule>, filterId: string, folderId: Option<string>)
    requires HasId(rules, filterId)
    ensures var r := MoveFilterToFolder(rules, filterId, folderId);
            exists k :: 0 <= k < |r| && r[k].id == filterId && r[k].folder == folderId
              && (folderId.Some? ==> r[k] in GetFiltersByFolder(r, folderId.value))
              && (folderId.None? ==> r[k] in GetFiltersByCategory(r, r[k].category))
  {
    var m := FindIndex(rules, (x: FilterRule) => x.id == filterId);
    var i := m.value;
    var r := MoveFilterToFolder(rules, filterId, folderId);
    assert r[i].id == filterId && r[i].folder == folderId;
    assert r[i] in r;
  }

  /** Deleting a folder never leaves a rule pointing at a missing folder. */
  lemma DeleteFolderNoOrphans(s: Store, id: string)
    requires NoOrphans(s)
    ensures NoOrphans(DeleteCustomFolder(s, id))
  {
    var r := DeleteCustomFolder(s, id);
    forall x | x in r.filters && Truthy(x.folder) ensures HasFolder(r.customFolders, x.folder.value) {
      assert x in s.filters;
      var k :| 0 <= k < |s.customFolders| && s.customFolders[k].id == x.folder.value;
      var f := s.customFolders[k];
      assert f in r.customFolders;
      var j :| 0 <= j < |r.customFolders| && r.customFolders[j] == f;
    }
  }
}

=== FILE: rules.dfy ===
/** The records the filter manager stores: rules, folders and settings, with
    the partial-update records that are merged into them. */
module Rules {
  import opened Wrappers

  /** One substitution rule. `descriptionKey` is declared required in the
      interface but treated as optional everywhere it is read, so it is an
      `Option` here; `None` and `Some("")` are both falsy in JavaScript. */
  datatype FilterRule = FilterRule(
    id: string,
    descriptionKey: Option<string>,
    description: Option<string>,
    pattern: string,
    replacement: string,
    useRegex: bool,
    enabled: bool,
    category: string,
    subcategory: Option<string>,
    folder: Option<string>)

  /** A rule without its id: the argument of `addFilter` and an entry of the
      bundled default set. */
  datatype RuleTemplate = RuleTemplate(
    descriptionKey: Option<string>,
    description: Option<string>,
    pattern: string,
    replacement: string,
    useRegex: bool,
    enabled: bool,
    category: string,
    subcategory: Option<string>,
    folder: Option<string>)

  /** A user-defined folder. */
  datatype CustomFolder = CustomFolder(
    id: string,
    name: string,
    icon: Option<string>,
    expanded: Option<bool>)

  /** A folder without its id: the argument of `addCustomFolder`. */
  datatype FolderTemplate = FolderTemplate(
    name: string,
    icon: Option<string>,
    expanded: Option<bool>)

  datatype Theme = Light | Dark | Auto

  /** The single settings record. */
  datatype AppSettings = AppSettings(
    language: string,
    autoStart: bool,
    notifications: bool,
    theme: Theme,
    shortcutPaste: string)

  /** The settings a fresh store starts with. */
  const DefaultSettings := AppSettings("en", false, true, Auto, "CommandOrControl+Shift+V")

  /** JavaScript truthiness of an optional string. */
  predicate Truthy(o: Option<string>) {
    o.Some? && o.value != ""
  }

  /** A built-in rule is one whose `descriptionKey` is truthy. */
  predicate IsBuiltin(r: FilterRule) {
    Truthy(r.descriptionKey)
  }

  /** `!f.folder`: the rule is shown under its category, not in a folder. */
  predicate Unfoldered(r: FilterRule) {
    !Truthy(r.folder)
  }

  /** `f.folder === folderId`. */
  predicate InFolder(r: FilterRule, folderId: string) {
    r.folder == Some(folderId)
  }

  /** The stored rule `{...t, id}`. */
  function WithId(t: RuleTemplate, id: string): (r: FilterRule)
    ensures r.id == id
    ensures Template(r) == t
  {
    FilterRule(id, t.descriptionKey, t.description, t.pattern, t.replacement,
               t.useRegex, t.enabled, t.category, t.subcategory, t.folder)
  }

  /** Everything of a rule except its id. */
  function Template(r: FilterRule): RuleTemplate {
    RuleTemplate(r.descriptionKey, r.description, r.pattern, r.replacement,
                 r.useRegex, r.enabled, r.category, r.subcategory, r.folder)
  }

  /** A partial rule update. `id` is deliberately absent: the model does not let
      an update rename a rule. */
  datatype RulePatch = RulePatch(
    descriptionKey: Update<Option<string>>,
    description: Update<Option<string>>,
    pattern: Update<string>,
    replacement: Update<string>,
    useRegex: Update<bool>,
    enabled: Update<bool>,
    category: Update<string>,
    subcategory: Update<Option<string>>,
    folder: Update<Option<string>>)

  /** The update that changes nothing (`{}`). */
  const EmptyRulePatch := RulePatch(Absent, Absent, Absent, Absent, Absent, Absent, Absent, Absent, Absent)

  /** `{ enabled: v }`. */
  function EnabledPatch(v: bool): RulePatch {
    EmptyRulePatch.(enabled := Present(v))
  }

  /** `{ folder: f }`, with `None` standing for `undefined`. */
  function MovePatch(f: Option<string>): RulePatch {
    EmptyRulePatch.(folder := Present(f))
  }

  /** `{ ...r, ...p }`. */
  function PatchRule(r: FilterRule, p: RulePatch): FilterRule {
    FilterRule(
      r.id,
      p.descriptionKey.Apply(r.descriptionKey),
      p.description.Apply(r.description),
      p.pattern.Apply(r.pattern),
      p.replacement.Apply(r.replacement),
      p.useRegex.Apply(r.useRegex),
      p.enabled.Apply(r.enabled),
      p.category.Apply(r.category),
      p.subcategory.Apply(r.subcategory),
      p.folder.Apply(r.folder))
  }

  /** `{ ...p, ...q }`: the fields of `q` override those of `p`. */
  function MergeRulePatches(p: RulePatch, q: RulePatch): RulePatch {
    RulePatch(
      p.descriptionKey.Then(q.descriptionKey),
      p.description.Then(q.description),
      p.pattern.Then(q.pattern),
      p.replacement.Then(q.replacement),
      p.useRegex.Then(q.useRegex),
      p.enabled.Then(q.enabled),
      p.category.Then(q.category),
      p.subcategory.Then(q.subcategory),
      p.folder.Then(q.folder))
  }

  /** A merge keeps the id, takes every field the patch sets, and keeps every
      field it does not. */
  lemma PatchRuleMerges(r: FilterRule, p: RulePatch)
    ensures PatchRule(r, p).id == r.id
    ensures p.descriptionKey.Present? ==> PatchRule(r, p).descriptionKey == p.descriptionKey.value
    ensures p.descriptionKey.Absent? ==> PatchRule(r, p).descriptionKey == r.descriptionKey
    ensures p.description.Present? ==> PatchRule(r, p).description == p.description.value
    ensures p.description.Absent? ==> PatchRule(r, p).description == r.description
    ensures p.pattern.Present? ==> PatchRule(r, p).pattern == p.pattern.value
    ensures p.pattern.Absent? ==> PatchRule(r, p).pattern == r.pattern
    ensures p.replacement.Present? ==> PatchRule(r, p).replacement == p.replacement.value
    ensures p.replacement.Absent? ==> PatchRule(r, p).replacement == r.replacement
    ensures p.useRegex.Present? ==> PatchRule(r, p).useRegex == p.useRegex.value
    ensures p.useRegex.Absent? ==> PatchRule(r, p).useRegex == r.useRegex
    ensures p.enabled.Present? ==> PatchRule(r, p).enabled == p.enabled.value
    ensures p.enabled.Absent? ==> PatchRule(r, p).enabled == r.enabled
    ensures p.category.Present? ==> PatchRule(r, p).category == p.category.value
    ensures p.category.Absent? ==> PatchRule(r, p).category == r.category
    ensures p.subcategory.Present? ==> PatchRule(r, p).subcategory == p.subcategory.value
    ensures p.subcategory.Absent? ==> PatchRule(r, p).subcategory == r.subcategory
    ensures p.folder.Present? ==> PatchRule(r, p).folder == p.folder.value
    ensures p.folder.Absent? ==> PatchRule(r, p).folder == r.folder
    ensures p == EmptyRulePatch ==> PatchRule(r, p) == r
  {
  }

  /** Two successive merges equal one merge of the combined patch. */
  lemma PatchRuleCompose(r: FilterRule, p: RulePatch, q: RulePatch)
    ensures PatchRule(PatchRule(r, p), q) == PatchRule(r, MergeRulePatches(p, q))
  {
  }

  /** A partial folder update; `id` is deliberately absent as for rules. */
  datatype FolderPatch = FolderPatch(
    name: Update<string>,
    icon: Update<Option<string>>,
    expanded: Update<Option<bool>>)

  /** `{ ...f, ...p }`. */
  function PatchFolder(f: CustomFolder, p: FolderPatch): CustomFolder {
    CustomFolder(f.id, p.name.Apply(f.name), p.icon.Apply(f.icon), p.expanded.Apply(f.expanded))
  }

  /** A partial settings update (`Partial<AppSettings>`). */
  datatype SettingsPatch = SettingsPatch(
    language: Update<string>,
    autoStart: Update<bool>,
    notifications: Update<bool>,
    theme: Update<Theme>,
    shortcutPaste: Update<string>)

  /** `{ ...current, ...p }`. */
  function PatchSettings(s: AppSettings, p: SettingsPatch): AppSettings {
    AppSettings(
      p.language.Apply(s.language),
      p.autoStart.Apply(s.autoStart),
      p.notifications.Apply(s.notifications),
      p.theme.Apply(s.theme),
      p.shortcutPaste.Apply(s.shortcutPaste))
  }

  /** `{ ...p, ...q }` for settings patches. */
  function MergeSettingsPatches(p: SettingsPatch, q: SettingsPatch): SettingsPatch {
    SettingsPatch(
      p.language.Then(q.language),
      p.autoStart.Then(q.autoStart),
      p.notifications.Then(q.notifications),
      p.theme.Then(q.theme),
      p.shortcutPaste.Then(q.shortcutPaste))
  }
}

=== FILE: seqs.dfy ===
/** Order-preserving selection and first-match search over sequences: the
    models of `Array.prototype.filter` and `Array.prototype.findIndex`. */
module Seqs {
  import opened Wrappers

  /** The elements of `s` that satisfy `p`, in their original order. */
  function Keep<T(!new)>(s: seq<T>, p: T -> bool): (r: seq<T>)
    ensures |r| <= |s|
    ensures forall x :: x in r <==> x in s && p(x)
    decreases |s|
  {
    if |s| == 0 then []
    else if p(s[0]) then [s[0]] + Keep(s[1..], p)
    else Keep(s[1..], p)
  }

  /** Selection distributes over concatenation, so the kept elements keep
      their relative order. */
  lemma {:induction false} KeepAppend<T(!new)>(a: seq<T>, b: seq<T>, p: T -> bool)
    ensures Keep(a + b, p) == Keep(a, p) + Keep(b, p)
    decreases |a|
  {
    if |a| == 0 {
      assert a + b == b;
    } else {
      assert (a + b)[1..] == a[1..] + b;
      KeepAppend(a[1..], b, p);
    }
  }

  /** When every element passes, nothing is dropped. */
  lemma {:induction false} KeepAll<T(!new)>(s: seq<T>, p: T -> bool)
    requires forall i :: 0 <= i < |s| ==> p(s[i])
    ensures Keep(s, p) == s
    decreases |s|
  {
    if |s| > 0 {
      KeepAll(s[1..], p);
    }
  }

  /** When no element passes, everything is dropped. */
  lemma {:induction false} KeepNone<T(!new)>(s: seq<T>, p: T -> bool)
    requires forall i :: 0 <= i < |s| ==> !p(s[i])
    ensures Keep(s, p) == []
    decreases |s|
  {
    if |s| > 0 {
      KeepNone(s[1..], p);
    }
  }

  /** Two selections agree when their predicates agree on the elements. */
  lemma {:induction false} KeepCongruent<T(!new)>(s: seq<T>, p: T -> bool, q: T -> bool)
    requires forall i :: 0 <= i < |s| ==> p(s[i]) == q(s[i])
    ensures Keep(s, p) == Keep(s, q)
    decreases |s|
  {
    if |s| > 0 {
      KeepCongruent(s[1..], p, q);
    }
  }

  /** Selecting twice is selecting by the conjunction `pq`. */
  lemma {:induction false} KeepKeep<T(!new)>(s: seq<T>, p: T -> bool, q: T -> bool, pq: T -> bool)
    requires forall i :: 0 <= i < |s| ==> pq(s[i]) == (p(s[i]) && q(s[i]))
    ensures Keep(Keep(s, p), q) == Keep(s, pq)
    decreases |s|
  {
    if |s| > 0 {
      KeepKeep(s[1..], p, q, pq);
    }
  }

  /** Dropping the single failing element between two passing runs. */
  lemma KeepDropOne<T(!new)>(a: seq<T>, x: T, b: seq<T>, p: T -> bool)
    requires forall i :: 0 <= i < |a| ==> p(a[i])
    requires forall i :: 0 <= i < |b| ==> p(b[i])
    requires !p(x)
    ensures Keep(a + [x] + b, p) == a + b
  {
    var ax := a + [x];
    assert Keep([x], p) == [];
    KeepAll(a, p);
    KeepAppend(a, [x], p);
    assert a + [] == a;
    assert Keep(ax, p) == a;
    KeepAll(b, p);
    KeepAppend(ax, b, p);
  }

  /** Selection is idempotent. */
  lemma KeepIdempotent<T(!new)>(s: seq<T>, p: T -> bool)
    ensures Keep(Keep(s, p), p) == Keep(s, p)
  {
    var k := Keep(s, p);
    assert forall i :: 0 <= i < |k| ==> p(k[i]) by {
      forall i | 0 <= i < |k| ensures p(k[i]) {
        assert k[i] in k;
      }
    }
    KeepAll(k, p);
  }

  /** Position `k` holds the first element of `s` satisfying `p`. */
  predicate FirstWhere<T>(s: seq<T>, p: T -> bool, k: nat) {
    k < |s| && p(s[k]) && forall j :: 0 <= j < k ==> !p(s[j])
  }

  /** `findIndex` from position `from` on; `None` is the `-1` of JavaScript. */
  function FindIndexFrom<T>(s: seq<T>, p: T -> bool, from: nat): (r: Option<nat>)
    requires from <= |s|
    ensures r.Some? ==> from <= r.value < |s| && p(s[r.value])
    ensures r.Some? ==> forall j :: from <= j < r.value ==> !p(s[j])
    ensures r.None? ==> forall j :: from <= j < |s| ==> !p(s[j])
    decreases |s| - from
  {
    if from == |s| then None
    else if p(s[from]) then Some(from)
    else FindIndexFrom(s, p, from + 1)
  }

  /** `findIndex`: the position of the first element satisfying `p`, if any. */
  function FindIndex<T>(s: seq<T>, p: T -> bool): (r: Option<nat>)
    ensures r.Some? <==> exists k :: 0 <= k < |s| && p(s[k])
    ensures r.Some? ==> FirstWhere(s, p, r.value)
  {
    FindIndexFrom(s, p, 0)
  }

  /** `s[i] = f(s[i])` at the first element satisfying `p`, and nothing when
      there is none. */
  function UpdateFirst<T>(s: seq<T>, p: T -> bool, f: T -> T): (r: seq<T>)
    ensures |r| == |s|
    ensures forall k :: 0 <= k < |s| ==> r[k] == if FirstWhere(s, p, k) then f(s[k]) else s[k]
    ensures (forall k :: 0 <= k < |s| ==> !p(s[k])) ==> r == s
  {
    match FindIndex(s, p)
    case None => s
    case Some(i) => s[i := f(s[i])]
  }

  /** Updating the first match twice is updating it once with the composed
      function, provided the first update keeps the element matching and
      leaves the elements before it non-matching. */
  lemma UpdateFirstTwice<T>(s: seq<T>, p: T -> bool, f: T -> T, g: T -> T)
    requires forall x :: p(x) ==> p(f(x))
    ensures UpdateFirst(UpdateFirst(s, p, f), p, g) == UpdateFirst(s, p, x => g(f(x)))
  {
    var a := UpdateFirst(s, p, f);
    var b := UpdateFirst(a, p, g);
    var c := UpdateFirst(s, p, x => g(f(x)));
    forall k | 0 <= k < |s| ensures b[k] == c[k] {
      if FirstWhere(s, p, k) {
        assert a[k] == f(s[k]);
        assert forall j :: 0 <= j < k ==> a[j] == s[j];
        assert FirstWhere(a, p, k);
      } else {
        assert a[k] == s[k];
      }
    }
  }
}

=== FILE: shortcuts.dfy ===
/** Recording the global paste shortcut from a key press, and showing a
    shortcut in the settings window. A shortcut is written in Electron's
    accelerator syntax: modifier and key names joined by '+'. */
module Shortcuts {
  import opened Wrappers
  import opened Strings
  import opened Rules

  /** The fields of a `keydown` event the recorder reads. */
  datatype KeyEvent = KeyEvent(key: string, ctrlKey: bool, metaKey: bool, altKey: bool, shiftKey: bool)

  /** What a key press does: nothing while the recorder is off, closing the
      recorder on Escape, nothing for a bare modifier or an unmodified key, or
      a recorded shortcut. */
  datatype Capture = NotRecording | Closed | Ignored | Recorded(shortcut: string)

  predicate HasModifier(ev: KeyEvent) {
    ev.ctrlKey || ev.metaKey || ev.altKey || ev.shiftKey
  }

  /** The place of a modifier name in a written shortcut: CommandOrControl,
      then Alt, then Shift; any other name comes after them. */
  function ModifierRank(name: string): nat {
    if name == "CommandOrControl" then 0
    else if name == "Alt" then 1
    else if name == "Shift" then 2
    else 3
  }

  /** The modifier names of a press, in the order they are written. Control
      and Meta both count as "CommandOrControl". */
  function ModifierNames(ev: KeyEvent): (r: seq<string>)
    ensures |r| == 0 <==> !HasModifier(ev)
    ensures ("CommandOrControl" in r <==> ev.ctrlKey || ev.metaKey) && ("Alt" in r <==> ev.altKey)
    ensures "Shift" in r <==> ev.shiftKey
    ensures forall i :: 0 <= i < |r| ==> r[i] != "" && '+' !in r[i]
  {
    (if ev.ctrlKey || ev.metaKey then ["CommandOrControl"] else [])
    + (if ev.altKey then ["Alt"] else [])
    + (if ev.shiftKey then ["Shift"] else [])
  }

  /** Only the three modifier names are written, each at most once, in the
      order CommandOrControl, Alt, Shift. */
  lemma ModifierNamesOrdered(ev: KeyEvent)
    ensures var r := ModifierNames(ev);
            && (forall i :: 0 <= i < |r| ==> ModifierRank(r[i]) < 3)
            && (forall i, j :: 0 <= i < j < |r| ==> ModifierRank(r[i]) < ModifierRank(r[j]))
  {
  }

  /** The keys that are only modifiers and are never recorded on their own. */
  predicate IsModifierKey(key: string) {
    key in ["Control", "Shift", "Alt", "Meta"]
  }

  /** The renamed keys: the accelerator name of an upper-cased key name. */
  function KeyName(upper: string): (r: Option<string>)
    ensures r.Some? ==> r.value != "" && '+' !in r.value
  {
    if upper == "ARROWUP" then Some("Up")
    else if upper == "ARROWDOWN" then Some("Down")
    else if upper == "ARROWLEFT" then Some("Left")
    else if upper == "ARROWRIGHT" then Some("Right")
    else if upper == "ENTER" then Some("Return")
    else if upper == " " then Some("Space")
    else if upper == "DELETE" then Some("Delete")
    else if upper == "BACKSPACE" then Some("Backspace")
    else None
  }

  /** The recorded name of the pressed key as the recorder writes it: the
      upper-cased key, renamed when it is one of the renamed keys. */
  function MainKeyAsWritten(key: string): string {
    var u := AsciiUpper(key);
    match KeyName(u)
    case Some(n) => n
    case None => u
  }

  /** The recorded name of the pressed key with '+' written "Plus", the name
      Electron's accelerator syntax gives that key. */
  function MainKey(key: string): string {
    if key == "+" then "Plus" else MainKeyAsWritten(key)
  }

  /** `captureShortcut`, with the key naming as a parameter. A shortcut is
      recorded exactly for a non-modifier key other than Escape pressed with at
      least one modifier while recording. */
  function CaptureWith(name: string -> string, recording: bool, ev: KeyEvent): (c: Capture)
    ensures c.NotRecording? <==> !recording
    ensures c.Closed? <==> recording && ev.key == "Escape"
    ensures c.Recorded? <==> recording && ev.key != "Escape" && !IsModifierKey(ev.key) && HasModifier(ev)
    ensures c.Ignored? <==> recording && ev.key != "Escape" && (IsModifierKey(ev.key) || !HasModifier(ev))
  {
    if !recording then NotRecording
    else if ev.key == "Escape" then Closed
    else if IsModifierKey(ev.key) then Ignored
    else if |ModifierNames(ev)| == 0 then Ignored
    else Recorded(Join(ModifierNames(ev) + [name(ev.key)], '+'))
  }

  /** `captureShortcut` as the recorder is written. It agrees with the
      corrected recorder on every key but '+'. */
  function CaptureShortcutAsWritten(recording: bool, ev: KeyEvent): (c: Capture)
    ensures c.Recorded? <==> recording && ev.key != "Escape" && !IsModifierKey(ev.key) && HasModifier(ev)
    ensures ev.key != "+" ==> c == CaptureShortcut(recording, ev)
  {
    CaptureWith(MainKeyAsWritten, recording, ev)
  }

  /** `captureShortcut` with the '+' key named "Plus": the same classification
      of key presses, and a '+' pressed with modifiers is recorded as those
      modifiers followed by "Plus". */
  function CaptureShortcut(recording: bool, ev: KeyEvent): (c: Capture)
    ensures c.NotRecording? <==> !recording
    ensures c.Closed? <==> recording && ev.key == "Escape"
    ensures c.Recorded? <==> recording && ev.key != "Escape" && !IsModifierKey(ev.key) && HasModifier(ev)
    ensures c.Ignored? <==> recording && ev.key != "Escape" && (IsModifierKey(ev.key) || !HasModifier(ev))
    ensures c.Recorded? && ev.key == "+" ==> c.shortcut == Join(ModifierNames(ev) + ["Plus"], '+')
  {
    CaptureWith(MainKey, recording, ev)
  }

  /** Upper-casing neither adds nor removes a '+'. */
  lemma AsciiUpperPlusFree(key: string)
    ensures '+' in AsciiUpper(key) <==> '+' in key
  {
    var u := AsciiUpper(key);
    if '+' in u {
      var i :| 0 <= i < |u| && u[i] == '+';
      assert key[i] == '+';
    }
    if '+' in key {
      var i :| 0 <= i < |key| && key[i] == '+';
      assert u[i] == '+';
    }
  }

  /** The key name is a single non-empty accelerator token for every key
      except those longer names that contain '+'. */
  lemma MainKeyIsToken(key: string)
    requires key != "" && (key == "+" || '+' !in key)
    ensures MainKey(key) != "" && '+' !in MainKey(key)
  {
    AsciiUpperPlusFree(key);
  }

  /** A recorded shortcut reads back, split at '+', as its modifier names in
      order followed by the key name, each a non-empty token. */
  lemma RecordedShortcutSplits(recording: bool, ev: KeyEvent)
    requires CaptureShortcut(recording, ev).Recorded?
    requires ev.key != "" && (ev.key == "+" || '+' !in ev.key)
    ensures var parts := Split(CaptureShortcut(recording, ev).shortcut, '+');
      && parts == ModifierNames(ev) + [MainKey(ev.key)]
      && forall i :: 0 <= i < |parts| ==> parts[i] != ""
  {
    MainKeyIsToken(ev.key);
    var parts := ModifierNames(ev) + [MainKey(ev.key)];
    assert forall i :: 0 <= i < |parts| ==> parts[i] != "" && '+' !in parts[i];
    SplitJoin(parts, '+');
  }

  /** As written, the '+' key (Shift and '=' on many layouts) records a
      shortcut whose split ends in two empty tokens instead of a key name. */
  lemma PlusKeyAsWritten(ev: KeyEvent)
    requires ev.key == "+" && HasModifier(ev)
    ensures CaptureShortcutAsWritten(true, ev).Recorded?
    ensures Split(CaptureShortcutAsWritten(true, ev).shortcut, '+') == ModifierNames(ev) + ["", ""]
  {
    var mods := ModifierNames(ev);
    assert AsciiUpper("+") == "+";
    assert MainKeyAsWritten("+") == "+";
    JoinAppend(mods, ["+"], '+');
    JoinAppend(mods, ["", ""], '+');
    assert Join(["", ""], '+') == "+" by {
      assert ["", ""][1..] == [""];
    }
    SplitJoin(mods + ["", ""], '+');
  }

  /** For Control, Shift and '+', the recorder writes "CommandOrControl+Shift++". */
  lemma PlusKeyExample()
    ensures CaptureShortcutAsWritten(true, KeyEvent("+", true, false, false, true))
            == Recorded("CommandOrControl+Shift++")
  {
    var ev := KeyEvent("+", true, false, false, true);
    assert AsciiUpper("+") == "+";
    assert MainKeyAsWritten("+") == "+";
    assert ModifierNames(ev) + ["+"] == ["CommandOrControl", "Shift", "+"];
    assert Join(["CommandOrControl", "Shift", "+"], '+') == "CommandOrControl+Shift++" by {
      assert ["CommandOrControl", "Shift", "+"][1..] == ["Shift", "+"];
      assert ["Shift", "+"][1..] == ["+"];
    }
  }

  /** With the key named "Plus" the same press records a three-token shortcut. */
  lemma PlusKeyCorrected(ev: KeyEvent)
    requires ev.key == "+" && HasModifier(ev)
    ensures CaptureShortcut(true, ev) == Recorded(Join(ModifierNames(ev) + ["Plus"], '+'))
    ensures Split(CaptureShortcut(true, ev).shortcut, '+') == ModifierNames(ev) + ["Plus"]
  {
    RecordedShortcutSplits(true, ev);
  }

  /** Pressing Control, Shift and 'v' records the default paste shortcut. */
  lemma DefaultShortcutIsRecordable()
    ensures CaptureShortcut(true, KeyEvent("v", true, false, false, true)) == Recorded(DefaultSettings.shortcutPaste)
  {
    var ev := KeyEvent("v", true, false, false, true);
    assert AsciiUpper("v") == "V";
    assert MainKey("v") == "V";
    assert ModifierNames(ev) + ["V"] == ["CommandOrControl", "Shift", "V"];
    assert Join(["CommandOrControl", "Shift", "V"], '+') == "CommandOrControl+Shift+V" by {
      assert ["CommandOrControl", "Shift", "V"][1..] == ["Shift", "V"];
      assert ["Shift", "V"][1..] == ["V"];
    }
  }

  // ---------------------------------------------------------------------
  // Display

  /** `formatShortcut`: the first "CommandOrControl" shown as "Ctrl", then the
      first "Command" as "Cmd", then the first "Control" as "Ctrl". */
  function FormatShortcut(s: string): string {
    ReplaceFirst(ReplaceFirst(ReplaceFirst(s, "CommandOrControl", "Ctrl"), "Command", "Cmd"), "Control", "Ctrl")
  }

  /** A pattern holding a character the text lacks does not occur in it. */
  lemma AbsentCharNoMatch(s: string, pat: string, i: nat)
    requires i < |pat| && pat[i] !in s
    ensures IndexOf(s, pat).None?
  {
    forall j: nat
      ensures !OccursAt(s, pat, j)
    {
      if j + |pat| <= |s| {
        assert s[j..j + |pat|][i] == s[j + i];
        assert s[j + i] in s;
      }
    }
  }

  /** A shortcut without a lower-case 'o' is shown unchanged. */
  lemma FormatShortcutKeepsOthers(s: string)
    requires 'o' !in s
    ensures FormatShortcut(s) == s
  {
    AbsentCharNoMatch(s, "CommandOrControl", 1);
    AbsentCharNoMatch(s, "Command", 1);
    AbsentCharNoMatch(s, "Control", 1);
  }

  /** A leading "CommandOrControl" is shown as "Ctrl" when the rest holds no
      lower-case 'o'. */
  lemma FormatShortcutShowsCtrl(rest: string)
    requires 'o' !in rest
    ensures FormatShortcut("CommandOrControl" + rest) == "Ctrl" + rest
  {
    var s := "CommandOrControl" + rest;
    assert s[0..16] == "CommandOrControl";
    assert IndexOf(s, "CommandOrControl") == Some(0);
    assert ReplaceFirst(s, "CommandOrControl", "Ctrl") == "Ctrl" + rest by {
      assert s[16..] == rest;
    }
    assert 'o' !in "Ctrl" + rest by {
      assert forall i :: 0 <= i < 4 ==> ("Ctrl" + rest)[i] != 'o';
      assert forall i :: 4 <= i < |"Ctrl" + rest| ==> ("Ctrl" + rest)[i] == rest[i - 4];
    }
    FormatShortcutKeepsOthers("Ctrl" + rest);
  }
}

=== FILE: strings.dfy ===
/** The JavaScript string operations the core relies on, over `seq<char>`. */
module Strings {
  import opened Wrappers

  // ---------------------------------------------------------------------
  // split / join on a single-character separator (`String.prototype.split`)
  // ---------------------------------------------------------------------

  /** Joins the parts with `sep` between consecutive parts. */
  function Join(parts: seq<string>, sep: char): string
    requires |parts| >= 1
    decreases |parts|
  {
    if |parts| == 1 then parts[0] else parts[0] + [sep] + Join(parts[1..], sep)
  }

  /** `s.split(sep)`: the maximal separator-free pieces, empty pieces included. */
  function Split(s: string, sep: char): (r: seq<string>)
    ensures |r| >= 1
    ensures forall i :: 0 <= i < |r| ==> sep !in r[i]
    ensures Join(r, sep) == s
    decreases |s|
  {
    if |s| == 0 then [""]
    else
      var rest := Split(s[1..], sep);
      if s[0] == sep then [""] + rest
      else [[s[0]] + rest[0]] + rest[1..]
  }

  /** Joining two non-empty lists is joining each and putting one separator between. */
  lemma {:induction false} JoinAppend(a: seq<string>, b: seq<string>, sep: char)
    requires |a| >= 1 && |b| >= 1
    ensures Join(a + b, sep) == Join(a, sep) + [sep] + Join(b, sep)
    decreases |a|
  {
    assert (a + b)[0] == a[0];
    if |a| == 1 {
      assert (a + b)[1..] == b;
    } else {
      assert (a + b)[1..] == a[1..] + b;
      JoinAppend(a[1..], b, sep);
    }
  }

  /** Splitting a join of separator-free parts gives the parts back. */
  lemma {:induction false} SplitJoin(parts: seq<string>, sep: char)
    requires |parts| >= 1
    requires forall i :: 0 <= i < |parts| ==> sep !in parts[i]
    ensures Split(Join(parts, sep), sep) == parts
    decreases |parts|, |parts[0]|
  {
    if |parts[0]| > 0 {
      var p0 := parts[0];
      var tail := [p0[1..]] + parts[1..];
      assert Join(parts, sep) == [p0[0]] + Join(tail, sep) by {
        if |parts| == 1 {
        } else {
          assert Join(tail, sep) == p0[1..] + [sep] + Join(parts[1..], sep);
        }
      }
      assert forall i :: 0 <= i < |tail| ==> sep !in tail[i] by {
        forall i | 0 <= i < |tail| ensures sep !in tail[i] {
          if i == 0 {
            assert forall c :: c in p0[1..] ==> c in p0;
          } else {
            assert tail[i] == parts[i];
          }
        }
      }
      SplitJoin(tail, sep);
      assert p0[0] != sep by {
        assert p0[0] in p0;
      }
      assert ([p0[0]] + Join(tail, sep))[1..] == Join(tail, sep);
      assert [p0[0]] + p0[1..] == p0;
    } else if |parts| > 1 {
      SplitJoin(parts[1..], sep);
      assert Join(parts, sep) == [sep] + Join(parts[1..], sep);
      assert ([sep] + Join(parts[1..], sep))[1..] == Join(parts[1..], sep);
      assert [""] + parts[1..] == parts;
    }
  }

  // ---------------------------------------------------------------------
  // substring search and first-occurrence replacement
  // ---------------------------------------------------------------------

  /** `pat` occurs in `s` at index `i`. */
  predicate OccursAt(s: string, pat: string, i: nat) {
    i + |pat| <= |s| && s[i..i + |pat|] == pat
  }

  /** `s.indexOf(pat, from)`: the first occurrence at or after `from`. */
  function IndexOfFrom(s: string, pat: string, from: nat): (r: Option<nat>)
    ensures r.Some? ==> from <= r.value && OccursAt(s, pat, r.value)
    ensures r.Some? ==> forall j :: from <= j < r.value ==> !OccursAt(s, pat, j)
    ensures r.None? ==> forall j :: from <= j ==> !OccursAt(s, pat, j)
    decreases |s| - from
  {
    if from + |pat| > |s| then None
    else if s[from..from + |pat|] == pat then Some(from)
    else IndexOfFrom(s, pat, from + 1)
  }

  /** `s.indexOf(pat)`. */
  function IndexOf(s: string, pat: string): Option<nat> {
    IndexOfFrom(s, pat, 0)
  }

  /** `s.replace(pat, rep)` with a string pattern: only the first occurrence is
      replaced. Every replacement used by the model is free of `$`, so the
      replacement-pattern tokens of `String.prototype.replace` do not arise. */
  function ReplaceFirst(s: string, pat: string, rep: string): (r: string)
    ensures IndexOf(s, pat).None? ==> r == s
    ensures IndexOf(s, pat).Some? ==>
              var k := IndexOf(s, pat).value;
              r == s[..k] + rep + s[k + |pat|..]
  {
    match IndexOf(s, pat)
    case None => s
    case Some(k) => s[..k] + rep + s[k + |pat|..]
  }

  /** Removing the first occurrence of `pat` when it is the suffix leaves
      what comes before it. */
  lemma ReplaceSuffixOccurrence(s: string, pat: string)
    requires IndexOf(s, pat) == Some(|s| - |pat|)
    ensures ReplaceFirst(s, pat, "") + pat == s
  {
    var k := |s| - |pat|;
    assert ReplaceFirst(s, pat, "") == s[..k];
    assert s[k..] == pat;
    assert s[..k] + s[k..] == s;
  }

  /** `s.startsWith(pre)`. */
  predicate StartsWith(s: string, pre: string) {
    |pre| <= |s| && s[..|pre|] == pre
  }

  /** `s.endsWith(suf)`. */
  predicate EndsWith(s: string, suf: string) {
    |suf| <= |s| && s[|s| - |suf|..] == suf
  }

  // ---------------------------------------------------------------------
  // trimming (`String.prototype.trim`)
  // ---------------------------------------------------------------------

  /** The characters `trim` removes: ECMAScript WhiteSpace and LineTerminator. */
  predicate IsJsSpace(c: char) {
    || c == '\t' || c == '\n' || c == '\U{000B}' || c == '\U{000C}' || c == '\r'
    || c == ' ' || c == '\U{00A0}' || c == '\U{1680}'
    || ('\U{2000}' <= c <= '\U{200A}')
    || c == '\U{2028}' || c == '\U{2029}' || c == '\U{202F}' || c == '\U{205F}'
    || c == '\U{3000}' || c == '\U{FEFF}'
  }

  /** Every character of `s` is removed by `trim`. */
  predicate IsBlank(s: string) {
    forall i :: 0 <= i < |s| ==> IsJsSpace(s[i])
  }

  /** A leading space followed by a blank prefix of the rest is a blank
      prefix of the whole. */
  lemma BlankPrefixStep(s: string, r: string)
    requires |s| > 0 && IsJsSpace(s[0])
    requires |r| <= |s| - 1 && r == s[1..][|s| - 1 - |r|..]
    requires IsBlank(s[1..][..|s| - 1 - |r|])
    ensures r == s[|s| - |r|..] && IsBlank(s[..|s| - |r|])
  {
    var n := |s| - |r|;
    assert s[..n] == [s[0]] + s[1..][..n - 1];
  }

  /** Drops leading white space. */
  function TrimStart(s: string): (r: string)
    ensures |r| <= |s| && r == s[|s| - |r|..]
    ensures IsBlank(s[..|s| - |r|])
    ensures |r| == 0 || !IsJsSpace(r[0])
    decreases |s|
  {
    if |s| > 0 && IsJsSpace(s[0]) then
      var r := TrimStart(s[1..]);
      BlankPrefixStep(s, r);
      r
    else s
  }

  /** Drops trailing white space. */
  function TrimEnd(s: string): (r: string)
    ensures |r| <= |s| && r == s[..|r|]
    ensures IsBlank(s[|r|..])
    ensures |r| == 0 || !IsJsSpace(r[|r| - 1])
    decreases |s|
  {
    if |s| > 0 && IsJsSpace(s[|s| - 1]) then
      var r := TrimEnd(s[..|s| - 1]);
      assert s[..|s| - 1][..|r|] == s[..|r|];
      assert forall i :: 0 <= i < |s| - 1 - |r| ==> s[|r|..][i] == s[..|s| - 1][|r|..][i];
      r
    else s
  }

  /** `s.trim()`. */
  function Trim(s: string): string {
    TrimEnd(TrimStart(s))
  }

  /** A string trims to empty exactly when it is blank. */
  lemma TrimEmptyIffBlank(s: string)
    ensures Trim(s) == "" <==> IsBlank(s)
  {
    var a := TrimStart(s);
    if Trim(s) == "" {
      assert IsBlank(a[0..]);
      assert s == s[..|s| - |a|] + a;
    }
  }

  // ---------------------------------------------------------------------
  // case mapping
  // ---------------------------------------------------------------------

  /** Upper-cases the ASCII letters a-z and leaves every other character. */
  function AsciiUpperChar(c: char): char {
    if 'a' <= c <= 'z' then (c as int - 32) as char else c
  }

  /** `s.toUpperCase()` restricted to ASCII letters. */
  function AsciiUpper(s: string): (r: string)
    ensures |r| == |s|
    ensures forall i :: 0 <= i < |s| ==> r[i] == AsciiUpperChar(s[i])
  {
    seq(|s|, i requires 0 <= i < |s| => AsciiUpperChar(s[i]))
  }

  // ---------------------------------------------------------------------
  // decimal numerals (`String(n)` and canonical array-index keys)
  // ---------------------------------------------------------------------

  predicate IsDigit(c: char) {
    '0' <= c <= '9'
  }

  function DigitChar(d: nat): char
    requires d < 10
  {
    ('0' as int + d) as char
  }

  /** The decimal numeral of `n` without leading zeros, as `String(n)` writes it. */
  function NatToString(n: nat): (r: string)
    ensures |r| >= 1
    ensures forall i :: 0 <= i < |r| ==> IsDigit(r[i])
    ensures |r| > 1 ==> r[0] != '0'
    decreases n
  {
    if n < 10 then [DigitChar(n)] else NatToString(n / 10) + [DigitChar(n % 10)]
  }

  /** `String(n)` for an integer. */
  function IntToString(n: int): string {
    if n < 0 then "-" + NatToString(-n) else NatToString(n)
  }

  /** The value of a string of decimal digits. */
  function DigitsValue(s: string): nat
    requires forall i :: 0 <= i < |s| ==> IsDigit(s[i])
    decreases |s|
  {
    if |s| == 0 then 0
    else
      assert IsDigit(s[|s| - 1]);
      10 * DigitsValue(s[..|s| - 1]) + (s[|s| - 1] as int - '0' as int)
  }

  /** The number a property key names when it is a canonical numeral
      (digits only, no leading zero unless it is "0"). */
  function CanonicalIndex(k: string): (r: Option<nat>)
    ensures r.Some? ==> NatToString(r.value) == k
  {
    if |k| >= 1 && (forall i :: 0 <= i < |k| ==> IsDigit(k[i])) && (|k| == 1 || k[0] != '0')
    then NatDigitsRoundTrip(k); Some(DigitsValue(k))
    else None
  }

  /** A canonical numeral is the numeral of its value. */
  lemma {:induction false} NatDigitsRoundTrip(k: string)
    requires |k| >= 1
    requires forall i :: 0 <= i < |k| ==> IsDigit(k[i])
    requires |k| == 1 || k[0] != '0'
    ensures NatToString(DigitsValue(k)) == k
    decreases |k|
  {
    var init := k[..|k| - 1];
    var d := k[|k| - 1] as int - '0' as int;
    if |k| == 1 {
      assert DigitsValue(init) == 0;
    } else {
      NatDigitsRoundTrip(init);
      DigitsValuePositive(init);
      assert DigitsValue(k) / 10 == DigitsValue(init);
      assert DigitsValue(k) % 10 == d;
      assert k == init + [k[|k| - 1]];
    }
  }

  /** A numeral with a non-zero leading digit has a positive value. */
  lemma {:induction false} DigitsValuePositive(s: string)
    requires |s| >= 1
    requires forall i :: 0 <= i < |s| ==> IsDigit(s[i])
    requires s[0] != '0'
    ensures DigitsValue(s) >= 1
    decreases |s|
  {
    if |s| > 1 {
      DigitsValuePositive(s[..|s| - 1]);
    }
  }

  /** Every numeral `NatToString` produces is recognised as canonical. */
  lemma NatToStringCanonical(n: nat)
    ensures CanonicalIndex(NatToString(n)) == Some(n)
  {
    var k := NatToString(n);
    assert CanonicalIndex(k).Some?;
    NatToStringInjective(CanonicalIndex(k).value, n);
  }

  /** Distinct numbers have distinct numerals. */
  lemma {:induction false} NatToStringInjective(a: nat, b: nat)
    requires NatToString(a) == NatToString(b)
    ensures a == b
    decreases a
  {
    var s := NatToString(a);
    if a >= 10 && b >= 10 {
      assert NatToString(a / 10) == s[..|s| - 1] == NatToString(b / 10);
      NatToStringInjective(a / 10, b / 10);
      assert a % 10 == s[|s| - 1] as int - '0' as int == b % 10;
    }
  }

  // ---------------------------------------------------------------------
  // the default `Array.prototype.sort` order on strings
  // ---------------------------------------------------------------------

  /** `a` sorts strictly before `b`: a proper prefix, or smaller at the first
      differing position. */
  predicate LexLess(a: string, b: string)
    decreases |a|
  {
    |b| > 0 && (|a| == 0 || a[0] < b[0] || (a[0] == b[0] && LexLess(a[1..], b[1..])))
  }

  lemma {:induction false} LexLessIrreflexive(a: string)
    ensures !LexLess(a, a)
    decreases |a|
  {
    if |a| > 0 {
      LexLessIrreflexive(a[1..]);
    }
  }

  lemma {:induction false} LexLessTransitive(a: string, b: string, c: string)
    requires LexLess(a, b) && LexLess(b, c)
    ensures LexLess(a, c)
    decreases |a|
  {
    if |a| > 0 && a[0] == b[0] && b[0] == c[0] {
      LexLessTransitive(a[1..], b[1..], c[1..]);
    }
  }

  lemma {:induction false} LexLessTotal(a: string, b: string)
    requires a != b
    ensures LexLess(a, b) || LexLess(b, a)
    decreases |a|
  {
    if |a| > 0 && |b| > 0 && a[0] == b[0] {
      assert a == [a[0]] + a[1..] && b == [b[0]] + b[1..];
      LexLessTotal(a[1..], b[1..]);
    }
  }

  /** Strictly increasing, hence free of duplicates. */
  predicate StrictlySorted(xs: seq<string>) {
    forall i, j :: 0 <= i < j < |xs| ==> LexLess(xs[i], xs[j])
  }

  /** Inserts `x` into a strictly sorted list unless it is already there. */
  function InsertSorted(xs: seq<string>, x: string): (r: seq<string>)
    requires StrictlySorted(xs)
    ensures StrictlySorted(r)
    ensures forall y :: y in r <==> y in xs || y == x
    decreases |xs|
  {
    if |xs| == 0 then [x]
    else if xs[0] == x then xs
    else if LexLess(x, xs[0]) then
      assert forall j :: 0 <= j < |xs| ==> LexLess(x, xs[j]) by {
        forall j | 0 <= j < |xs| ensures LexLess(x, xs[j]) {
          if j > 0 { LexLessTransitive(x, xs[0], xs[j]); }
        }
      }
      [x] + xs
    else
      LexLessTotal(x, xs[0]);
      var rest := InsertSorted(xs[1..], x);
      assert forall j :: 0 <= j < |rest| ==> LexLess(xs[0], rest[j]) by {
        forall j | 0 <= j < |rest| ensures LexLess(xs[0], rest[j]) {
          assert rest[j] in rest;
          if rest[j] != x {
            var k :| 0 <= k < |xs[1..]| && xs[1..][k] == rest[j];
            assert xs[k + 1] == rest[j];
          }
        }
      }
      [xs[0]] + rest
  }
}

=== FILE: templates.dfy ===
/** Template files: exporting the custom rules to a named JSON document and
    importing the entries of such a document as new rules. The JSON text
    itself is abstracted: a document is modelled by the values it holds. */
module Templates {
  import opened Wrappers
  import opened Seqs
  import opened Rules
  import opened RuleStore
  import opened Ui

  /** One entry of a template's `filters` list. Fields a document may leave
      out are `Option`s; the model takes `pattern` and `replacement` as present. */
  datatype Entry = Entry(
    category: Option<string>,
    description: Option<string>,
    descriptionKey: Option<string>,
    pattern: string,
    replacement: string,
    useRegex: Option<bool>,
    enabled: Option<bool>)

  /** An element of a parsed `filters` array: an object, or `null`, whose
      fields cannot be read. */
  datatype Item = Object(entry: Entry) | Null

  /** The document an export writes. */
  datatype TemplateDoc = TemplateDoc(
    name: string,
    description: string,
    author: string,
    version: string,
    filters: seq<Entry>)

  /** What an export produces: the document and the name it is saved under. */
  datatype Export = Export(doc: TemplateDoc, fileName: string)

  /** What reading a chosen file gives: nothing usable (the file cannot be
      read, is not JSON, or is `null`), or a JSON value whose `filters` is an
      array (`Some`) or is missing or not an array (`None`). */
  datatype ParsedFile = NotJson | Parsed(filters: Option<seq<Item>>)

  // ---------------------------------------------------------------------
  // Export

  /** The entry written for a rule: its category, description, pattern,
      replacement and the two flags; the id, built-in key, subcategory and
      folder are not written. */
  function ExportEntry(f: FilterRule): Entry {
    Entry(Some(f.category), f.description, None, f.pattern, f.replacement, Some(f.useRegex), Some(f.enabled))
  }

  /** The entries written for `user`, in order. */
  function ExportEntries(user: seq<FilterRule>): (r: seq<Entry>)
    ensures |r| == |user|
    ensures forall k :: 0 <= k < |user| ==> r[k] == ExportEntry(user[k])
  {
    seq(|user|, k requires 0 <= k < |user| => ExportEntry(user[k]))
  }

  predicate IsAsciiAlnum(c: char) {
    'a' <= c <= 'z' || 'A' <= c <= 'Z' || '0' <= c <= '9'
  }

  /** `name.replace(/[^a-z0-9]/gi, '_')`. */
  function SafeFileName(name: string): (r: string)
    ensures |r| == |name|
    ensures forall i :: 0 <= i < |r| ==> IsAsciiAlnum(r[i]) || r[i] == '_'
    ensures forall i :: 0 <= i < |name| && IsAsciiAlnum(name[i]) ==> r[i] == name[i]
  {
    seq(|name|, i requires 0 <= i < |name| => if IsAsciiAlnum(name[i]) then name[i] else '_')
  }

  /** A safe name is its own safe name. */
  lemma SafeFileNameIdempotent(name: string)
    ensures SafeFileName(SafeFileName(name)) == SafeFileName(name)
  {
    var s := SafeFileName(name);
    assert forall i :: 0 <= i < |s| ==> SafeFileName(s)[i] == s[i];
  }

  /** `exportTemplate`, with the three prompt answers as parameters (`None`
      for a dismissed prompt): refused when there is no custom rule, cancelled
      when the name is not truthy, and otherwise the custom rules in stored
      order under the given name, with "Custom template" and "Anonymous" for
      an empty description and author. */
  function ExportTemplate(rules: seq<FilterRule>, name: Option<string>, desc: Option<string>, author: Option<string>)
    : (o: Outcome<Export>)
    ensures o.Refused? <==> forall k :: 0 <= k < |rules| ==> IsBuiltin(rules[k])
    ensures o.Refused? ==> o.why == NothingToExport
    ensures o.Cancelled? <==> (exists k :: 0 <= k < |rules| && !IsBuiltin(rules[k])) && !Truthy(name)
    ensures o.Done? ==>
      && o.value.doc.name == name.value && o.value.doc.version == "1.0.0"
      && (Truthy(desc) ==> o.value.doc.description == desc.value)
      && (!Truthy(desc) ==> o.value.doc.description == "Custom template")
      && (Truthy(author) ==> o.value.doc.author == author.value)
      && (!Truthy(author) ==> o.value.doc.author == "Anonymous")
      && o.value.fileName == SafeFileName(name.value) + ".json"
      && |o.value.doc.filters| == |UserRules(rules)| > 0
      && o.value.doc.filters == ExportEntries(UserRules(rules))
      && forall e :: e in o.value.doc.filters ==> e.descriptionKey == None
  {
    var user := UserRules(rules);
    if |user| == 0 then
      assert forall k :: 0 <= k < |rules| ==> IsBuiltin(rules[k]) by {
        assert forall k :: 0 <= k < |rules| ==> rules[k] in rules;
      }
      Refused(NothingToExport)
    else
      assert !IsBuiltin(user[0]) && user[0] in rules;
      if !Truthy(name) then Cancelled
      else
        var doc := TemplateDoc(
          name.value,
          if Truthy(desc) then desc.value else "Custom template",
          if Truthy(author) then author.value else "Anonymous",
          "1.0.0",
          ExportEntries(user));
        Done(Export(doc, SafeFileName(name.value) + ".json"))
  }

  // ---------------------------------------------------------------------
  // Import

  /** The rule added for an entry: a missing or empty category becomes
      "Custom", a flag is on unless it is literally `false`, and the built-in
      key is carried over as written. */
  function ImportEntry(e: Entry): RuleTemplate {
    RuleTemplate(e.descriptionKey, e.description, e.pattern, e.replacement,
                 e.useRegex != Some(false), e.enabled != Some(false),
                 if Truthy(e.category) then e.category.value else "Custom", None, None)
  }

  /** The entries of the object elements, in order. */
  function Objects(items: seq<Item>): (r: seq<Entry>)
    ensures |r| <= |items|
    ensures forall e :: e in r <==> Object(e) in items
  {
    if |items| == 0 then []
    else
      var rest := Objects(items[1..]);
      assert forall x :: x in items <==> x == items[0] || x in items[1..];
      match items[0]
      case Object(e) => [e] + rest
      case Null => rest
  }

  /** The rules added for the entries `es`, the first under the `n`-th id. */
  function Added(es: seq<Entry>, idAt: nat -> string, n: nat): (r: seq<FilterRule>)
    ensures |r| == |es|
    ensures forall k :: 0 <= k < |es| ==> r[k] == WithId(ImportEntry(es[k]), idAt(n + k))
  {
    seq(|es|, k requires 0 <= k < |es| => WithId(ImportEntry(es[k]), idAt(n + k)))
  }

  /** Adding the first entry, then the rest from the next id on. */
  lemma AddedCons(e: Entry, es: seq<Entry>, idAt: nat -> string, n: nat)
    ensures Added([e] + es, idAt, n) == [WithId(ImportEntry(e), idAt(n))] + Added(es, idAt, n + 1)
  {
  }

  /** The import loop from the `n`-th successful addition on: an element whose
      fields cannot be read is skipped, every other one is added under the
      next fresh id, and the count of additions is returned. */
  function ImportItems(rules: seq<FilterRule>, items: seq<Item>, idAt: nat -> string, n: nat)
    : (r: (seq<FilterRule>, nat))
    ensures r.1 == n + |Objects(items)|
    ensures r.0 == rules + Added(Objects(items), idAt, n)
    decreases |items|
  {
    if |items| == 0 then (rules, n)
    else
      match items[0]
      case Null => ImportItems(rules, items[1..], idAt, n)
      case Object(e) =>
        var x := WithId(ImportEntry(e), idAt(n));
        var r := ImportItems(AddFilter(rules, ImportEntry(e), idAt(n)), items[1..], idAt, n + 1);
        AddedCons(e, Objects(items[1..]), idAt, n);
        assert rules + [x] + Added(Objects(items[1..]), idAt, n + 1)
               == rules + ([x] + Added(Objects(items[1..]), idAt, n + 1));
        r
  }

  /** `handleTemplateFile`, with the chosen file (`None` when none was chosen),
      the answer to the confirmation and the id oracle as parameters. The
      result is the new rule list and the number of rules imported. */
  function ImportTemplate(rules: seq<FilterRule>, file: Option<ParsedFile>, confirmed: bool, idAt: nat -> string)
    : (o: Outcome<(seq<FilterRule>, nat)>)
    ensures o.Refused? <==> file == Some(NotJson) || file == Some(Parsed(None))
    ensures o.Refused? ==> o.why == if file == Some(NotJson) then UnreadableTemplate else InvalidFormat
    ensures o.Cancelled? <==> file.None? || (file.value.Parsed? && file.value.filters.Some? && !confirmed)
    ensures o.Done? ==> |rules| <= |o.value.0| && o.value.0[..|rules|] == rules && o.value.1 == |o.value.0| - |rules|
  {
    match file
    case None => Cancelled
    case Some(NotJson) => Refused(UnreadableTemplate)
    case Some(Parsed(None)) => Refused(InvalidFormat)
    case Some(Parsed(Some(items))) =>
      if !confirmed then Cancelled else Done(ImportItems(rules, items, idAt, 0))
  }

  /** An imported entry carrying a truthy built-in key becomes a built-in rule:
      the import does not strip the key. */
  lemma ImportKeepsBuiltinKey(e: Entry, id: string)
    ensures IsBuiltin(WithId(ImportEntry(e), id)) <==> Truthy(e.descriptionKey)
  {
  }

  // ---------------------------------------------------------------------
  // Round trip

  /** What an exported rule becomes once imported: the built-in key,
      subcategory and folder are gone, and an empty category reads as "Custom". */
  function Portable(f: FilterRule): (t: RuleTemplate)
    ensures t.pattern == f.pattern && t.replacement == f.replacement && t.description == f.description
    ensures t.useRegex == f.useRegex && t.enabled == f.enabled
    ensures t.descriptionKey == None && t.folder == None
  {
    Template(f).(descriptionKey := None, subcategory := None, folder := None,
                 category := if f.category == "" then "Custom" else f.category)
  }

  /** Every entry as an object element. */
  function AsItems(es: seq<Entry>): (r: seq<Item>)
    ensures |r| == |es|
    ensures forall k :: 0 <= k < |es| ==> r[k] == Object(es[k])
  {
    seq(|es|, k requires 0 <= k < |es| => Object(es[k]))
  }

  /** The array a parse of the written document gives back. */
  function ReadBack(doc: TemplateDoc): ParsedFile {
    Parsed(Some(AsItems(doc.filters)))
  }

  /** The objects of an all-object array are its entries. */
  lemma {:induction false} ObjectsOfEntries(es: seq<Entry>)
    ensures Objects(AsItems(es)) == es
    decreases |es|
  {
    if |es| > 0 {
      ObjectsOfEntries(es[1..]);
      assert AsItems(es)[1..] == AsItems(es[1..]);
      assert es == [es[0]] + es[1..];
    }
  }

  /** Importing a written document back, with confirmation, adds one rule
      per entry, in order, under the fresh ids. */
  lemma ImportReadBack(base: seq<FilterRule>, doc: TemplateDoc, idAt: nat -> string)
    ensures ImportTemplate(base, Some(ReadBack(doc)), true, idAt)
            == Done((base + Added(doc.filters, idAt, 0), |doc.filters|))
  {
    ObjectsOfEntries(doc.filters);
    var r := ImportItems(base, AsItems(doc.filters), idAt, 0);
    assert ImportTemplate(base, Some(ReadBack(doc)), true, idAt) == Done(r);
  }

  /** An exported entry reads back as the portable part of its rule. */
  lemma ImportExportEntry(f: FilterRule)
    ensures ImportEntry(ExportEntry(f)) == Portable(f)
  {
  }

  /** A document holding the entries of `user`, imported back with
      confirmation, appends one rule per entry carrying what `Portable` keeps. */
  lemma ImportExported(user: seq<FilterRule>, doc: TemplateDoc, base: seq<FilterRule>, idAt: nat -> string)
    requires doc.filters == ExportEntries(user)
    ensures var o := ImportTemplate(base, Some(ReadBack(doc)), true, idAt);
      && o.Done? && o.value.1 == |user|
      && |o.value.0| == |base| + |user| && o.value.0[..|base|] == base
      && forall k :: 0 <= k < |user| ==> o.value.0[|base| + k] == WithId(Portable(user[k]), idAt(k))
  {
    ImportReadBack(base, doc, idAt);
    var added := Added(doc.filters, idAt, 0);
    forall k | 0 <= k < |user|
      ensures added[k] == WithId(Portable(user[k]), idAt(k))
    {
      ImportExportEntry(user[k]);
    }
    assert (base + added)[..|base|] == base;
  }

  /** Exporting and importing the file back, with confirmation, appends one
      custom rule per exported rule, in order, under the fresh ids, each
      carrying what `Portable` keeps of the original; the count reported is
      the number of rules exported. */
  lemma ExportThenImport(rules: seq<FilterRule>, name: Option<string>, desc: Option<string>, author: Option<string>,
                         base: seq<FilterRule>, idAt: nat -> string)
    requires ExportTemplate(rules, name, desc, author).Done?
    ensures var user := UserRules(rules);
      var doc := ExportTemplate(rules, name, desc, author).value.doc;
      var o := ImportTemplate(base, Some(ReadBack(doc)), true, idAt);
      && o.Done? && o.value.1 == |user|
      && |o.value.0| == |base| + |user| && o.value.0[..|base|] == base
      && forall k :: 0 <= k < |user| ==>
           && o.value.0[|base| + k].id == idAt(k)
           && Template(o.value.0[|base| + k]) == Portable(user[k])
           && !IsBuiltin(o.value.0[|base| + k])
  {
    var user := UserRules(rules);
    var doc := ExportTemplate(rules, name, desc, author).value.doc;
    assert doc.filters == ExportEntries(user);
    ImportExported(user, doc, base, idAt);
  }

  /** Exporting the rules a round trip produced writes the same entries again,
      provided no exported rule had an empty category. */
  lemma ReExportIsStable(f: FilterRule, id: string)
    requires f.category != ""
    ensures ExportEntry(WithId(Portable(f), id)) == ExportEntry(f)
  {
  }
}

=== FILE: ui.dfy ===
/** How a settings-window action ends: refused with an alert, cancelled at a
    confirmation or prompt, or carried out. */
module Ui {

  /** The alerts that stop an action before it changes anything. */
  datatype Refusal =
    | CannotDeleteDefault
    | NoCustomFilters
    | NothingToExport
    | DescriptionRequired
    | PatternRequired
    | InvalidRegex
    | InvalidFormat
    | UnreadableTemplate

  datatype Outcome<+T> = Refused(why: Refusal) | Cancelled | Done(value: T)
}

=== FILE: wrappers.dfy ===
/** Option type used for the JavaScript `undefined`/absent values of the model. */
module Wrappers {

  /** `None` stands for an absent or `undefined` value, `Some(v)` for a present one. */
  datatype Option<+T> = None | Some(value: T) {

    /** Returns the wrapped value or `default` when absent. */
    function GetOr(default: T): T {
      match this
      case Some(v) => v
      case None => default
    }
  }

  /** A field of a partial update: `Absent` leaves the field alone, `Present(v)`
      overwrites it (with `v` possibly `None` for an optional field, which is
      how an explicitly `undefined` property behaves in a JavaScript spread). */
  datatype Update<+T> = Absent | Present(value: T) {

    /** The field's value after merging this update into `current`. */
    function Apply(current: T): T {
      match this
      case Absent => current
      case Present(v) => v
    }

    /** Merge of two updates applied one after the other: the later one wins. */
    function Then(later: Update<T>): Update<T> {
      if later.Present? then later else this
    }
  }

  /** Applying two updates in turn is applying their merge. */
  lemma UpdateThen<T>(u: Update<T>, w: Update<T>, x: T)
    ensures w.Apply(u.Apply(x)) == u.Then(w).Apply(x)
  {
  }
}
